=== FILE: README.md ===
# LZ4 containers of btrfs and the intelli_plug governor, in Dafny

This project models two small cores of a Samsung Exynos 7420 Android kernel tree:

- **The LZ4 wrapper of btrfs transparent compression** (`fs/btrfs/lz4_wrapper.c`). It has two container formats.
  - The **v1 bulk container** is an 8-byte header followed by the output of one LZ4 call over the whole extent. The header holds `1 << 30 | comp_len` and `orig_len`. It is written by `lz4_compress_pages_generic` and decoded by the v1 half of `lz4_decompress_biovec`. That half also assembles the destination pages from the caller's pages plus extra pages it allocates.
  - The **v0 streaming container** is a 4-byte total followed by one chunk per input page. Each chunk is a 4-byte little-endian length prefix and the compressed bytes. A page is zero-padded whenever fewer than four bytes of it remain after a chunk, so a prefix never straddles a page. It is written by `lz4_compress_pages_v0` and walked chunk by chunk by the v0 half of `lz4_decompress_biovec`.
  - **Format dispatch.** The leading word picks the format: `lz4_decompress_biovec` reads at most 128 KiB as v0, while `lz4_decompress` reads under 128 KiB as v0. `lz4_decompress` is the single-page decoder for inline extents, and it moves a requested offset down to the front of the page.
  - **Workspace allocation** gives all three scratch buffers or none.
- **The decision logic of the intelli_plug CPU-hotplug governor** (`drivers/cpufreq/intelli_plug.c`).
  - The thread statistics turn the average run-queue length into 1 or 2 wanted CPUs.
  - A persistence counter is armed to 9 by a tick that wants two CPUs. It keeps cpu 1 up through that tick and the eight ticks after it.
  - `unplug_cpu` and `num_online_cpus_little` act on cpu 1 only.
  - `cpu_all_ctrl` brings all CPUs up or takes the big ones down.

The model is functional throughout:

- Pages of bytes are one flat `seq<byte>`.
- The LZ4 primitives are function-typed parameters: the compressor, `LZ4_compressBound`, `LZ4_uncompress_unknownOutputSize` and `LZ4_uncompress`.
- `btrfs_decompress_buf2page` is an opaque stitcher that continues or stops the walk.
- Kernel services that can fail (`alloc_page`, `vmap`, `find_get_pages_contig`, `kmap_atomic`, `kzalloc`/`vmalloc`) are boolean or counting inputs.
- Unsigned wrap-around is written out where the source relies on it: 32-bit lengths, `size_t` totals, the `unsigned long` subtraction in the offset shift, and `setup_max_cpus - 1`.

The files, in dependency order:

- `bytes.dfy`: the byte type, little-endian length fields, `COUNT_PAGES`, and an optional type.
- `container_header.dfy`: the abstract LZ4 primitives, the leading-word tag, mask and classifiers, and the errno values.
- `workspace.dfy`: workspace allocation.
- `v0_layout.dfy`: the v0 byte layout, stated independently of the loops that write and read it.
- `v0_encoder.dfy`: `lz4_compress_pages_v0`.
- `v1_codec.dfy`: `lz4_compress_pages_generic` and the v1 half of `lz4_decompress_biovec`.
- `v0_decoder.dfy`: the v0 walk of `lz4_decompress_biovec`.
- `dispatch.dfy`: the entry of `lz4_decompress_biovec`, and the v1 compress-then-decompress round trip.
- `v0_round_trip.dfy`: the v0 compress-then-decompress round trip.
- `single_page.dfy`: `lz4_decompress`.
- `intelli_plug.dfy`: the governor.

Notes on the code as written:

- The v0 walk's failure test `out_len < 0` (line 657) is on a `size_t` and never fires. A failing decoder therefore does not end the walk with an error. Its negative return is passed on as a huge length, and `tot_out` wraps modulo 2^64.
- The v1 decoder's `out_len < 0` test (line 577) is dead for the same reason, so a failing expander still gives a 0 return.
- The v1 decoder keeps `out_vmap` and `extra_pages` in the one 8192-byte `workspace->buf`, with `extra_pages` 2048 bytes (256 page pointers) in (lines 521-522). Up to 256 destination pages the two never meet. Above that, `out_vmap[256 + k]` overwrites `extra_pages[k]`, so the free loop (lines 572-573) frees some pages twice and others never, or frees a caller's page: `V1Codec.AliasedFreeMissesFirstPage` shows this for 257 to 512 pages. The compressor's comment at line 150 names the 1 MiB limit this layout assumes, and neither op table compresses more than 512 KiB, so only a corrupt on-disk `orig_len` above 1 MiB reaches it. The model keeps the shared buffer as written.
- A single-page v0 read hands the decoder the `tot_len` bytes after the leading word. That is not the prefixed-chunk layout the v0 encoder writes: `SinglePage.V0ContainerOverrunsSinglePage` shows that this branch would read four bytes past any such container. The model keeps the branch as written.

## Model

| member | source | states |
|---|---|---|
| Bytes.Le32RoundTrip | fs/btrfs/lz4_wrapper.c:89-103 | a length below 2^32 written by write_compress_length reads back unchanged through read_compress_length |
| Bytes.ReadLe32OfLe32 | fs/btrfs/lz4_wrapper.c:89-103 | any length reads back truncated to 32 bits, as cpu_to_le32 of a size_t stores it |
| Bytes.ReadLe32Prefix | fs/btrfs/lz4_wrapper.c:97-103 | read_compress_length looks only at the four bytes it is given the address of |
| Bytes.CountPages | fs/btrfs/lz4_wrapper.c:123 | COUNT_PAGES gives enough whole pages for the length and no spare one; 0 for 0 |
| Bytes.CountPagesMonotone | fs/btrfs/lz4_wrapper.c:123 | more bytes never need fewer pages |
| ContainerHeader.Tag | fs/btrfs/lz4_wrapper.c:232 | `1 << 30 \| n` on 32 bits keeps the low 30 bits of n and reads as version 1 or 3 |
| ContainerHeader.TagRoundTrip | fs/btrfs/lz4_wrapper.c:231-232 | for n < 2^30 the tag is 2^30 + n, reads as version 1, and masking with (1<<30)-1 gives n back |
| ContainerHeader.TagAboveV0Limit | fs/btrfs/lz4_wrapper.c:232 | every v1 tag is above 131072, so it can never be read as a v0 total |
| ContainerHeader.ClassifyBiovec | fs/btrfs/lz4_wrapper.c:528-537 | lz4_decompress_biovec reads v0 exactly when tot_len <= 131072, and v1 exactly when above it with tot_len >> 30 == 1 |
| ContainerHeader.ClassifySingle | fs/btrfs/lz4_wrapper.c:701-714 | lz4_decompress reads v0 exactly when tot_len < 131072, and v1 exactly when at or above it with version 1 |
| ContainerHeader.TagClassifiedV1 | fs/btrfs/lz4_wrapper.c:531-535 | both entry points read every tag of a length under 2^30 as v1 |
| ContainerHeader.ClassifiersDisagreeOnlyAtLimit | fs/btrfs/lz4_wrapper.c:531 | the two classifiers disagree on 131072 and nowhere else: biovec reads it as v0, single-page rejects it as an unknown version |
| Workspace.AllocWorkspace | fs/btrfs/lz4_wrapper.c:53-76 | a workspace is returned exactly when the record and all three buffers were obtained, with the HC or 64k context and two 8192-byte work buffers; otherwise -ENOMEM, with the count of buffers obtained equal to the number of vmalloc calls that succeeded and every one of them freed, and the record freed when it was obtained |
| V0Layout.RoomFromPages | fs/btrfs/lz4_wrapper.c:367-412 | pg_bytes_left, kept alongside the pages used, is the room left in the page after the flat position |
| V0Layout.PadLeavesRoom | fs/btrfs/lz4_wrapper.c:383-389 | after a chunk's zero fill the next prefix has four bytes of room, and the fill only ever completes the current page |
| V0Layout.SwitchIsPad | fs/btrfs/lz4_wrapper.c:383-389 | at the end of a chunk the page-switch test fires exactly when the layout pads or the page is full, and the bytes it skips are the padding |
| V0Layout.FramedParts | fs/btrfs/lz4_wrapper.c:356-375 | a framed chunk is its length prefix followed by its compressed bytes |
| V0Layout.LayoutPrefix | fs/btrfs/lz4_wrapper.c:339-389 | laying out more chunks only appends to the layout |
| V0Layout.ChunkAt | fs/btrfs/lz4_wrapper.c:356-389 | chunk k sits, framed, at its start position, and the next chunk starts right after its framing |
| V0Layout.EveryPrefixFits | fs/btrfs/lz4_wrapper.c:331-389 | every length prefix of a v0 layout has at least four bytes of room in its page |
| V0Encoder.CopyOut | fs/btrfs/lz4_wrapper.c:367-412 | the copy loop never takes more than nr_dest_pages pages; it fails only with -1 at the page bound or -ENOMEM from the allocator |
| V0Encoder.CopyOutPages | fs/btrfs/lz4_wrapper.c:367-412 | the copy loop fails exactly when the pages the laid-out bytes need exceed the page bound (nr_dest_pages or the allocation limit), then with the bound's return and that many pages; otherwise it uses exactly the pages needed |
| V0Encoder.CopyOutLaysChunk | fs/btrfs/lz4_wrapper.c:367-412 | the copy loop lays the chunk out contiguously, then exactly the layout's zero padding, and leaves a prefix's room unless the input is used up |
| V0Encoder.PagesAppend | fs/btrfs/lz4_wrapper.c:426-433 | input that fills whole pages gains one chunk input for each further page |
| V0Encoder.PagesCover | fs/btrfs/lz4_wrapper.c:338-433 | every chunk compresses 1 to 4096 input bytes, and the chunk inputs joined give the input back |
| V0Encoder.ChunksStep | fs/btrfs/lz4_wrapper.c:426-433 | consuming one more input page adds its compressed chunk |
| V0Encoder.AppendChunk | fs/btrfs/lz4_wrapper.c:356-389 | framing one more chunk behind a laid-out container lays out the longer chunk list |
| V0Encoder.ChunkLaid | fs/btrfs/lz4_wrapper.c:339-413 | a turn that wrote a prefix, its chunk and the padding has laid out the chunks of one more input page, and tot_in stays page aligned |
| V0Encoder.TurnLength | fs/btrfs/lz4_wrapper.c:356-389 | the layout after one more input page is the layout before it plus the prefix, the chunk and the padding |
| V0Encoder.TurnCopies | fs/btrfs/lz4_wrapper.c:339-412 | a turn's copy fails exactly when the layout up to the end of its input page needs more pages than the bound; otherwise tot_in is that page's end, tot_out the layout's length and nr_pages the pages it needs |
| V0Encoder.AfterCopy | fs/btrfs/lz4_wrapper.c:414-434 | after a copied chunk the turn stops exactly on giving up (tot_in > 8192 and tot_in < tot_out), used-up input or tot_out > max_out, with the layout-level outcome; otherwise the encoder state is carried on unchanged |
| V0Encoder.StopTurn | fs/btrfs/lz4_wrapper.c:339-434 | on non-empty input some turn from the start on stops, before the input is used up |
| V0Encoder.StopOutcomeCases | fs/btrfs/lz4_wrapper.c:348-447 | of the stopping reasons, an empty compressor output or the nr_dest_pages bound gives -1, the allocator giving out first gives -ENOMEM, giving up or a container larger than its input gives 0 with nothing kept, and only a stop on used-up input or max_out with tot_out <= tot_in keeps the container |
| V0Encoder.Finish | fs/btrfs/lz4_wrapper.c:436-447 | the container is kept only when tot_out <= tot_in; then the total is written into the first four bytes and both totals are reported, otherwise both stay 0 |
| V0Encoder.FinishLaidOut | fs/btrfs/lz4_wrapper.c:419-447 | when the loop stops on used-up input or on max_out, a kept container is a success |
| V0Encoder.EncodeTurn | fs/btrfs/lz4_wrapper.c:339-434 | one outer turn ends the encoder exactly when the layout-level account of that turn says it stops (an empty compressor output, the page bound, giving up past 8192 bytes on a growing output, used-up input or max_out), and then with exactly that account's outcome; otherwise it moves tot_in on by one input page, keeps the layout invariant and stays within the page bound |
| V0Encoder.EncodeLoop | fs/btrfs/lz4_wrapper.c:339-434 | the outer loop ends with the outcome of the first turn, from its start on, that the layout-level account says stops, and within the page bound |
| V0Encoder.CompressV0 | fs/btrfs/lz4_wrapper.c:286-458 | no first page gives -ENOMEM and no input gives 0 with one page and nothing kept; otherwise the result is the outcome of the first stopping turn: -1 exactly for an empty compressor output or the nr_dest_pages bound, -ENOMEM exactly when the allocator gives out first, 0 with nothing kept exactly on giving up or a container larger than its input, and a kept container exactly otherwise, with tot_in the input consumed and tot_out the stamped total plus the layout of one chunk per input page; at most nr_dest_pages pages |
| V1Codec.V1Container | fs/btrfs/lz4_wrapper.c:231-234 | the container is the 8-byte header followed by the compressor's output |
| V1Codec.CompressV1 | fs/btrfs/lz4_wrapper.c:125-278 | success exactly when every service works and COUNT_PAGES(out_len + 8) <= nr_dest_pages; then the totals are len and out_len + 8, and the pages handed over hold the container; every page obtained is handed over or released; a failure hands nothing over and leaves *out_pages untouched or 0, and the capacity failure still reports both totals |
| V1Codec.CompressedHeaderReadsBack | fs/btrfs/lz4_wrapper.c:231-238 | a v1 container reads back through both classifiers as v1, with the compressed length, the original length and the payload the encoder stored |
| V1Codec.AssembleFromShape | fs/btrfs/lz4_wrapper.c:549-559 | each destination page is the next caller page exactly when that page lies at this index; caller pages are taken in order and never beyond vcnt; extra pages are numbered in order |
| V1Codec.AssembleDestAccounting | fs/btrfs/lz4_wrapper.c:549-559 | the destination range has COUNT_PAGES(orig_len) pages, matched caller pages plus extra pages |
| V1Codec.CallersPlusExtras | fs/btrfs/lz4_wrapper.c:549-559 | every destination page is a caller page or an extra page |
| V1Codec.EveryCallerPageUsed | fs/btrfs/lz4_wrapper.c:549-559 | caller pages at increasing page-aligned offsets inside the extent are all used, so extra pages fill only the holes |
| V1Codec.DecompressV1 | fs/btrfs/lz4_wrapper.c:538-586 | returns 0 exactly when both vmaps succeed; once the input is mapped the destination is the COUNT_PAGES(orig_len) pages assembled from caller and extra pages; on success the expander decodes the bytes after the header into orig_len bytes, the free loop runs once per extra page, and with at most 256 destination pages it frees every extra page exactly once, in allocation order; otherwise -ENOMEM with no output and nothing freed |
| V1Codec.FreedPages | fs/btrfs/lz4_wrapper.c:572-573 | the free loop calls __free_page once per extra page, on what extra_pages holds in the buffer it shares with out_vmap |
| V1Codec.ExtrasFreedOnce | fs/btrfs/lz4_wrapper.c:521-573 | with at most 256 destination pages, out_vmap never reaches extra_pages, and extra page k is the k-th page freed |
| V1Codec.AssembleDestInOrder | fs/btrfs/lz4_wrapper.c:549-559 | the assembly loop numbers its extra pages in the order it allocates them |
| V1Codec.AliasedFreeMissesFirstPage | fs/btrfs/lz4_wrapper.c:521-573 | with 257 to 512 destination pages and no caller pages, the out_vmap stores overwrite extra_pages: the first extra page is never freed and extra page 256 is freed twice |
| V0Decoder.InPageFits | fs/btrfs/lz4_wrapper.c:598-601 | with four bytes of room left in the page, a prefix read at the position lies in one page |
| V0Decoder.LandingAfter | fs/btrfs/lz4_wrapper.c:604-651 | the closed-form landing after a chunk never moves back and stays inside the source; a landing that does not stop leaves a prefix's room in its page and adds the skipped bytes to tot_in |
| V0Decoder.Advance | fs/btrfs/lz4_wrapper.c:604-651 | stepping over a chunk's bytes switches page on the encoder's padding rule and adds the skipped room to tot_in; it breaks early once tot_in reaches tot_len; only a chunk that reaches the end of the source runs out of pages; started inside a page it lands exactly where the closed-form landing says; on a layout's chunk it skips exactly the padding |
| V0Decoder.ReadAppended | fs/btrfs/lz4_wrapper.c:597-669 | a chunk read at the walk's position and output window extends a well-walked sequence of chunks |
| V0Decoder.ReadAccepted | fs/btrfs/lz4_wrapper.c:663-672 | a chunk accepted by buf2page leaves the walk between chunks, with tot_out at the end of its window |
| V0Decoder.LayoutRead | fs/btrfs/lz4_wrapper.c:597-604 | on a source that holds a layout, the prefix at the walk's position reads as the length of the next chunk, and the bytes after it are that chunk |
| V0Decoder.ChunkTurn | fs/btrfs/lz4_wrapper.c:597-664 | one outer turn reads the prefix, steps over the chunk and decodes it with a 4096-byte cap, moving tot_out on by the size_t return; it runs out of source exactly when the closed-form landing after the chunk does, and otherwise lands there |
| V0Decoder.WalkFrom | fs/btrfs/lz4_wrapper.c:597-672 | the walk from a prefix returns 0 or -1, ends inside the source, and returns -1 exactly when the turn that ends it starts before tot_len and runs out of source pages |
| V0Decoder.WalkStep | fs/btrfs/lz4_wrapper.c:597-672 | a walk that runs out of source returns -1 with no chunk; one that buf2page stops, or that reaches tot_len, hands over one chunk and returns 0; otherwise it hands over the chunk and goes on from the next prefix |
| V0Decoder.LayoutLanding | fs/btrfs/lz4_wrapper.c:597-651 | at chunk k of a layout, the prefix reads as chunk k's length, the bytes after it are chunk k, and the landing after it stops only after the last chunk and otherwise lands on chunk k+1's prefix |
| V0Decoder.WalkTurn | fs/btrfs/lz4_wrapper.c:597-672 | with buf2page never stopping, a walk at a prefix that frames a chunk hands that chunk over first and goes on from where the landing puts it, or ends with 0 after the last one |
| V0Decoder.WalkOnLayout | fs/btrfs/lz4_wrapper.c:597-672 | on a source holding a layout, with buf2page never stopping, the walk from chunk k's prefix returns 0 and hands over exactly the layout's remaining chunks |
| V0Decoder.WalkV0 | fs/btrfs/lz4_wrapper.c:596-672 | the outer loop of the v0 walk computes exactly the walk from the first prefix, and every chunk it hands over was read from a prefix in one page |
| V0Decoder.ShortSourceRunsOut | fs/btrfs/lz4_wrapper.c:591-638 | a one-page source whose leading word claims 4096 bytes and whose first prefix claims 65535 clamps tot_len to 4096 and returns -1 with no chunk decoded |
| V0Decoder.DecompressV0 | fs/btrfs/lz4_wrapper.c:588-676 | returns 0 or -1, and exactly the result of the walk from the first prefix up to the stored total clamped to srclen, so -1 exactly when a turn runs out of source pages before tot_len; every chunk handled was read from a prefix in one page and decoded with a one-page cap, with chained output windows; on a source holding a layout with buf2page never stopping, the walk returns 0 and hands the decoder exactly the layout's chunks |
| Dispatch.DecompressBiovec | fs/btrfs/lz4_wrapper.c:526-676 | a leading word <= 131072 goes to the v0 walk, which runs up to that word clamped to srclen; a word above it with version 1 goes to the v1 decoder; anything else returns -EIO |
| Dispatch.CompressThenDecompressV1 | fs/btrfs/lz4_wrapper.c:125-586 | a v1 container stored in whole pages and decompressed with every mapping in place is read as v1 and expands to the input, given an expander that inverts the compressor |
| V0RoundTrip.StoredHoldsLayout | fs/btrfs/lz4_wrapper.c:436-447 | a stored successful v0 container holds the layout of the encoder's chunks, with its total as srclen |
| V0RoundTrip.OutputOfPages | fs/btrfs/lz4_wrapper.c:653-666 | chunks that decode to the input pages put out the pages joined |
| V0RoundTrip.DecodesToInput | fs/btrfs/lz4_wrapper.c:653-666 | when the walk handed the decoder the encoder's chunks, a decoder that inverts the compressor puts out exactly the input the encoder consumed |
| V0RoundTrip.CompressThenDecompress | fs/btrfs/lz4_wrapper.c:286-676 | compressing at most 128 KiB with the v0 encoder and decompressing the kept container through lz4_decompress_biovec returns 0 and gives back the consumed input |
| SinglePage.DecodeIntoPage | fs/btrfs/lz4_wrapper.c:691-730 | srclen < 4 and an unknown version return -EIO; a failed mapping returns -ENOMEM; decode failures return -1; a decoded page has out_len <= 4096 |
| SinglePage.DecodeIntoPageBranches | fs/btrfs/lz4_wrapper.c:701-724 | the v0 branch decodes the tot_len bytes after the leading word into the page; the v1 branch succeeds exactly when the expander consumes the masked compressed length |
| SinglePage.Shift | fs/btrfs/lz4_wrapper.c:734 | memmove moves the count bytes from start_byte to the front of the page and leaves the rest as it was |
| SinglePage.MoveCount | fs/btrfs/lz4_wrapper.c:733 | the count is min(destlen, out_len - start_byte), with the subtraction wrapping modulo 2^64 when start_byte passes out_len |
| SinglePage.DecompressPage | fs/btrfs/lz4_wrapper.c:678-741 | fails exactly when the decode into the page fails, with -EIO, -ENOMEM or -1; a filled page keeps its size |
| SinglePage.PartialReadIsSliceOfFullRead | fs/btrfs/lz4_wrapper.c:732-735 | a read from start_byte inside the decoded data returns min(destlen, out_len - start_byte) bytes, and they are the bytes a read from 0 holds at start_byte |
| SinglePage.StartPastOutputMovesDestlen | fs/btrfs/lz4_wrapper.c:732-735 | a start_byte past the decoded data wraps the count to destlen, moving bytes the decoder never wrote |
| SinglePage.V1ContainerFillsPage | fs/btrfs/lz4_wrapper.c:709-724 | a v1 container of at most one page of data decodes into the page, given an expander that inverts the compressor |
| SinglePage.LeadingLengthFillsPage | fs/btrfs/lz4_wrapper.c:700-708 | a leading word under 128 KiB followed by that many compressed bytes of one page decodes into the page |
| SinglePage.V0ContainerOverrunsSinglePage | fs/btrfs/lz4_wrapper.c:700-707 | the v0 branch asks for four bytes past the end of any container of the v0 encoder |
| IntelliPlug.ProfileValues | drivers/cpufreq/intelli_plug.c:32-127 | the threshold tables fold to their integer values, CPU_NR_THRESHOLD is 537 and DUAL_PERSISTENCE is 9 |
| IntelliPlug.ThreadStats | drivers/cpufreq/intelli_plug.c:130-154 | the result is 1 or 2 for every profile, because the loop is bounded by the size of the eco table; it is 1 exactly when the load is at most (profile[0] + hysteresis when nr_run_last <= 1) << 10 |
| IntelliPlug.ThreadStatsMonotone | drivers/cpufreq/intelli_plug.c:139-151 | more load never asks for fewer CPUs |
| IntelliPlug.HysteresisKeepsOne | drivers/cpufreq/intelli_plug.c:144-149 | a load that gives 1 after a 2 also gives 1 after a 1 |
| IntelliPlug.CountLittle | drivers/cpufreq/intelli_plug.c:186-190 | the little-cluster loop counts cpu 1 and nothing else |
| IntelliPlug.NumOnlineLittle | drivers/cpufreq/intelli_plug.c:182-193 | the result is 1, plus 1 exactly when cpu 1 is online |
| IntelliPlug.UnplugThresholdValues | drivers/cpufreq/intelli_plug.c:204-205 | `cpu_nr_run_threshold << 1 / n` doubles the threshold only when n is 1 |
| IntelliPlug.UnplugFrom | drivers/cpufreq/intelli_plug.c:200-210 | the unplug loop considers only cpu 1, taking it down at most once |
| IntelliPlug.UnplugCpu | drivers/cpufreq/intelli_plug.c:195-211 | unplug_cpu takes cpu 1 down exactly when min_active_cpu is 0, cpu 1 is online and its load is below 537 (never the doubled threshold); unplug_cpu(1) does nothing |
| IntelliPlug.Tick | drivers/cpufreq/intelli_plug.c:213-252 | an inactive governor does nothing; an active tick records thread_stats's count; persist_count stays within 0..9, counts down while positive and is re-armed to 9 only on a two-CPU tick that brings it to 0; a one-CPU tick takes cpu 1 down exactly when the decrement leaves the counter at 0 (it found it at 0 or 1), cpu 1 is online and its load is under 537, and does nothing else; a two-CPU tick brings cpu 1 up exactly when fewer than two little CPUs are online and takes nothing down |
| IntelliPlug.CountdownHoldsOff | drivers/cpufreq/intelli_plug.c:229-235 | while the counter exceeds the number of ticks, no tick takes a CPU down and each counts it down by one |
| IntelliPlug.ArmingHoldsOff | drivers/cpufreq/intelli_plug.c:229-241 | a tick that arms the counter and the 8 ticks after it take no CPU down, after which the counter is at 1 |
| IntelliPlug.VisitOrderIsBigThenLittle | drivers/cpufreq/intelli_plug.c:269-271 | the bring-up loop visits 4, 5, 6, 7, 3, 2, 1: each of cpus 1..7 once, never cpu 0 |
| IntelliPlug.VisitIndex | drivers/cpufreq/intelli_plug.c:269-271 | exactly the cpus 1..7 have a place in the bring-up loop's visiting order, and the loop visits each at its place |
| IntelliPlug.BringUpFrom | drivers/cpufreq/intelli_plug.c:269-276 | the bring-up loop calls cpu_up for exactly the offline cpus it visits from its index on, each among 1..7, in the order 4, 5, 6, 7, 3, 2, 1 |
| IntelliPlug.TakeDownFrom | drivers/cpufreq/intelli_plug.c:281-285 | the take-down loop calls cpu_down for exactly the online cpus from its start down to 2, highest first |
| IntelliPlug.BringAllUp | drivers/cpufreq/intelli_plug.c:269-276 | the bring-up loop from 4 calls cpu_up for exactly the offline cpus among 1..7, never cpu 0, in the order 4, 5, 6, 7, 3, 2, 1 |
| IntelliPlug.TakeBigDown | drivers/cpufreq/intelli_plug.c:282-286 | the take-down loop from setup_max_cpus - 1, wrapped to UINT_MAX for 0, calls cpu_down for exactly the online cpus from there down to 2, all below setup_max_cpus, highest first |
| IntelliPlug.CpuAllCtrl | drivers/cpufreq/intelli_plug.c:259-294 | bringing up (when active) switches the governor off and brings up exactly the offline cpus among 1..7 in the loop's visiting order; taking down (when inactive) switches it on and takes down, highest first, exactly the online cpus from setup_max_cpus - 1 down to 2, the start wrapping to UINT_MAX when setup_max_cpus is 0; otherwise nothing happens |

## Left out

- The LZ4 and LZ4HC algorithms and `LZ4_compressBound` are function-typed parameters, including the choice between the HC, 64k and generic variants. Round trips assume a decoder or expander that inverts the compressor.
- `btrfs_decompress_buf2page` is not part of this model. It is an opaque predicate that continues or stops the walk.
- Page-cache and mapping plumbing is left out: `find_get_page(s)`, `kmap`/`kunmap`, `vmap`/`vunmap`, the flush and invalidate calls, and `flush_dcache_page`. Where a mapping can fail, the model takes that as a boolean input.
- Reference counts of input pages are not modelled, including the pages not released on the early failure paths of `lz4_compress_pages_generic`. The skipped `kunmap_atomic` on the unknown-version return of `lz4_decompress` is also not modelled.
- `printk`, the one-shot debug flag and `BUG_ON` are left out.
- The dead fallback call to `lz4_compress_pages_v0` after the return in `lz4_compress_pages_generic` is left out, because it cannot run.
- The `out_len < 0` tests on unsigned values are treated as never firing, as on a real build.
- V0Encoder.CompressV0: the page bound is stated for nr_dest_pages >= 1 only. The first destination page is taken before any bound check, so nr_dest_pages = 0 is never compared.
- V0RoundTrip.CompressThenDecompress: stated only for inputs of at most 128 KiB, the `max_coompres_thresh` of the lz4 op table (`fs/btrfs/lz4_wrapper.c:750`). The lz4hc table (line 760) allows 512 KiB. A v0 container whose total passes 131072 has version 0 in its top bits, so `lz4_decompress_biovec` rejects it with -EIO (lines 534-536) and the round trip does not hold there.
- V1Codec.DecompressV1: the shared pointer buffer is modelled without its 8192-byte end. From 1024 destination pages on, `out_vmap` and `extra_pages` run past `workspace->buf`; the model keeps storing and reading there instead of flagging the overrun.
- V1Codec.CompressV1: the model keeps the input and output page lists apart. The source keeps them in one buffer as well (`in_vmap` and `out_vmap`, lines 151-152), and they stay apart only for inputs of at most 256 pages, which both op tables' limits keep to.
- V0Decoder.DecompressV0: the model reads each chunk straight from the source. It does not copy a chunk into the 8192-byte `cbuf` working buffer, so an on-disk `in_len` larger than that buffer is not flagged.
- The early `break` of the v0 walk once `tot_in` reaches `tot_len` leaves only the inner loop, and the outer loop test then ends the walk. The model returns 0 right after handing that chunk to buf2page, which has the same effect.
- SinglePage.DecompressPage: accesses outside the source or the destination page end the model with `OutOfBounds` rather than modelling what they read or overwrite. Such accesses are a v0 `tot_len` past `srclen`, a v1 source under 8 bytes, a v1 `orig_len` above one page, or a memmove span past the page. `kmap_atomic` failure is an input.
- The intelli_plug workqueues, delayed work, mutex, framebuffer notifier and initialisation are left out.
- The `avg_nr_running`/`avg_cpu_nr_running` functions are inputs of each tick. The per-cpu stat array is not kept: the only value read, cpu 1's, is always the one stored in the same tick.
- `cpu_up`/`cpu_down` are recorded as actions and do not change the online mask.
- IntelliPlug.Tick: the "Run Stat Error" branch is left out, because the thread statistics are always 1 or 2.
- The panel parameter header `s6e3ha3_s6e3ha2_wqhd_param.h` holds only register tables, and is not part of this model.

=== FILE: bytes.dfy ===
/**
 * Bytes, little-endian 32-bit length fields and page arithmetic shared by
 * both LZ4 container formats (fs/btrfs/lz4_wrapper.c).
 */
module Bytes {

  newtype byte = x: int | 0 <= x < 256

  /** LZ4_LEN: width of every length field in a container. */
  const LenBytes: nat := 4
  /** PAGE_CACHE_SIZE (and LZ4_CHUNK_SIZE, which has the same value). */
  const PageSize: nat := 4096
  const U32Limit: nat := 0x1_0000_0000
  /** Unsigned long is 64 bits wide on the target. */
  const U64Limit: nat := 0x1_0000_0000_0000_0000

  /** write_compress_length: cpu_to_le32 truncates the value to 32 bits and
      stores the least significant byte first. */
  function Le32(n: nat): (b: seq<byte>)
    ensures |b| == LenBytes
  {
    var v := n % U32Limit;
    [(v % 256) as byte, (v / 256 % 256) as byte,
     (v / 65536 % 256) as byte, (v / 16777216 % 256) as byte]
  }

  /** read_compress_length: the four bytes at the front of `b`, little-endian. */
  function ReadLe32(b: seq<byte>): (n: nat)
    requires |b| >= LenBytes
    ensures n < U32Limit
  {
    (b[0] as nat) + 256 * (b[1] as nat) + 65536 * (b[2] as nat) + 16777216 * (b[3] as nat)
  }

  /** Writing a length and reading it back yields the length truncated to 32 bits. */
  lemma ReadLe32OfLe32(n: nat)
    ensures ReadLe32(Le32(n)) == n % U32Limit
  {
    var v := n % U32Limit;
    var b := Le32(n);
    assert b[0] as nat == v % 256;
    assert b[1] as nat == v / 256 % 256;
    assert b[2] as nat == v / 65536 % 256;
    assert b[3] as nat == v / 16777216 % 256;
    assert v / 16777216 < 256;
    assert v / 65536 == (v / 16777216) * 256 + v / 65536 % 256;
    assert v / 256 == (v / 65536) * 256 + v / 256 % 256;
    assert v == (v / 256) * 256 + v % 256;
  }

  /** Reading only looks at the first four bytes: what follows them is irrelevant. */
  lemma ReadLe32Prefix(b: seq<byte>, rest: seq<byte>)
    requires |b| >= LenBytes
    ensures ReadLe32(b + rest) == ReadLe32(b)
  {
  }

  /** A 32-bit length survives a write/read round trip unchanged. */
  lemma Le32RoundTrip(n: nat)
    requires n < U32Limit
    ensures ReadLe32(Le32(n)) == n
  {
    ReadLe32OfLe32(n);
  }

  /** The memset used to pad the tail of a page. */
  function Zeros(k: nat): (z: seq<byte>)
    ensures |z| == k
  {
    seq(k, _ => 0)
  }

  /** COUNT_PAGES(length): PAGE_CACHE_ALIGN(length) >> PAGE_CACHE_SHIFT, the
      number of whole pages needed to hold `length` bytes. */
  function CountPages(length: nat): (p: nat)
    ensures p * PageSize >= length
    ensures length > 0 ==> (p - 1) * PageSize < length
    ensures length == 0 ==> p == 0
  {
    (length + PageSize - 1) / PageSize
  }

  /** More bytes never need fewer pages. */
  lemma CountPagesMonotone(a: nat, b: nat)
    requires a <= b
    ensures CountPages(a) <= CountPages(b)
  {
  }

  /** A whole number of pages ends on a page boundary. */
  lemma WholePages(n: nat)
    ensures (n * PageSize) % PageSize == 0
  {
  }

  /** A slice of a slice is a slice of the whole. */
  lemma SliceOfSlice(s: seq<byte>, a: nat, b: nat, c: nat, d: nat)
    requires a <= b <= |s| && c <= d <= b - a
    ensures s[a..b][c..d] == s[a + c .. a + d]
  {
    assert forall i :: 0 <= i < d - c ==> s[a..b][c..d][i] == s[a + c + i];
  }

  /** A piece found at `p` in a part of `s` that starts at `off` is found at
      `off + p` in `s`. */
  lemma PieceWithin(s: seq<byte>, part: seq<byte>, piece: seq<byte>, off: nat, p: nat, q: nat)
    requires off + |part| <= |s| && s[off .. off + |part|] == part
    requires p + |piece| <= |part| && part[p .. p + |piece|] == piece
    requires q == off + p
    ensures q + |piece| <= |s| && s[q .. q + |piece|] == piece
  {
    SliceOfSlice(s, off, off + |part|, p, p + |piece|);
  }

  function Min(a: nat, b: nat): (m: nat)
    ensures m <= a && m <= b && (m == a || m == b)
  {
    if a <= b then a else b
  }
}

/** Optional values, for out-parameters a path leaves untouched. */
module Optional {
  datatype Option<+T> = None | Some(value: T)
}

=== FILE: container_header.dfy ===
/**
 * The LZ4 primitives the wrapper calls, kept abstract, and the leading
 * header word that tells a v0 container from a v1 container
 * (fs/btrfs/lz4_wrapper.c).
 */
module Lz4 {
  import opened Bytes

  /** LZ4_compress*Ctx: a whole input buffer to its compressed bytes. The
      wrapper treats an empty result as failure. The choice between the HC,
      64k and generic variants is the caller's and is not modelled. */
  type Compressor = seq<byte> -> seq<byte>

  /** LZ4_compressBound: the worst-case compressed size of `n` input bytes. */
  type Bound = nat -> nat

  /** The result of LZ4_uncompress_unknownOutputSize: the decoded bytes (its
      return value is their count) or a negative return −(neg+1). */
  datatype Decoded = Produced(bytes: seq<byte>) | Corrupt(neg: nat)

  /** LZ4_uncompress_unknownOutputSize(src, dst, isize, maxosize). */
  type Decoder = (seq<byte>, nat) -> Decoded

  /** The result of LZ4_uncompress: the number of source bytes it consumed
      (its return value) and the bytes it wrote, or a negative return −(neg+1). */
  datatype Expanded = Expanded(consumed: nat, bytes: seq<byte>) | Malformed(neg: nat)

  /** LZ4_uncompress(src, dst, osize): the source is everything after the
      given point, the output size is known. */
  type Expander = (seq<byte>, nat) -> Expanded

  /** A decoder that, with a one-page output cap, inverts the compressor
      on every page of input. */
  ghost predicate Inverts(decoder: Decoder, compress: Compressor)
  {
    forall p: seq<byte> :: 0 < |p| <= PageSize ==> decoder(compress(p), PageSize) == Produced(p)
  }

  /** An expander that inverts the compressor: handed a source that starts
      with the compressed bytes of `d` and asked for |d| bytes, it consumes
      exactly the compressed bytes and writes `d`. */
  ghost predicate ExpandInverts(expand: Expander, compress: Compressor)
  {
    forall d: seq<byte>, s: seq<byte> :: compress(d) <= s ==>
      expand(s, |d|) == Expanded(|compress(d)|, d)
  }

  /** The int a Decoded stands for. */
  function DecodedReturn(d: Decoded): (r: int)
    ensures d.Produced? <==> r >= 0
    ensures d.Produced? ==> r == |d.bytes|
  {
    match d
    case Produced(bytes) => |bytes|
    case Corrupt(neg) => -(neg as int) - 1
  }

  /** The int an Expanded stands for. */
  function ExpandedReturn(e: Expanded): (r: int)
    ensures e.Expanded? <==> r >= 0
    ensures e.Expanded? ==> r == e.consumed
  {
    match e
    case Expanded(consumed, _) => consumed
    case Malformed(neg) => -(neg as int) - 1
  }
}

module ContainerHeader {
  import opened Bytes

  /** Bit 30 set: the version marker of a v1 header. */
  const VersionBit: nat := 0x4000_0000
  /** (1 << 30) - 1: the compressed-length part of a v1 tag. */
  const LengthMask: nat := 0x3FFF_FFFF
  /** 128 * 1024: the v0/v1 boundary of the leading header word. */
  const V0Limit: nat := 131072
  /** sizeof(struct compress_header_v1). */
  const V1HeaderBytes: nat := 8

  /** `tot_len >> 30` on a 32-bit value. */
  function Version(t: nat): nat
  {
    t / VersionBit
  }

  /** `tot_len & ((1 << 30) - 1)`. */
  function MaskedLength(t: nat): nat
  {
    t % VersionBit
  }

  /** `1 << 30 | n` on a 32-bit unsigned n: bit 30 of n is either already
      set (the OR changes nothing) or clear (the OR adds 2^30). */
  function Tag(n: nat): (t: nat)
    requires n < U32Limit
    ensures t < U32Limit
    ensures MaskedLength(t) == MaskedLength(n)
    ensures Version(t) == 1 || Version(t) == 3
  {
    if (n / VersionBit) % 2 == 1 then n else n + VersionBit
  }

  /** A compressed length under 2^30 comes back from its tag unchanged and
      the tag reads as version 1. */
  lemma TagRoundTrip(n: nat)
    requires n <= LengthMask
    ensures Tag(n) == VersionBit + n
    ensures Version(Tag(n)) == 1
    ensures MaskedLength(Tag(n)) == n
  {
  }

  /** Every v1 tag is larger than any leading word a v0 container can carry. */
  lemma TagAboveV0Limit(n: nat)
    requires n < U32Limit
    ensures Tag(n) > V0Limit
  {
  }

  datatype Format = V0 | V1 | UnknownVersion

  /** The dispatch in lz4_decompress_biovec: `tot_len <= 128 * 1024` is v0. */
  function ClassifyBiovec(totLen: nat): (f: Format)
    ensures f == V0 <==> totLen <= V0Limit
    ensures f == V1 <==> totLen > V0Limit && Version(totLen) == 1
  {
    if totLen <= V0Limit then V0
    else if Version(totLen) != 1 then UnknownVersion
    else V1
  }

  /** The dispatch in lz4_decompress: `tot_len < 128 * 1024` is v0. */
  function ClassifySingle(totLen: nat): (f: Format)
    ensures f == V0 <==> totLen < V0Limit
    ensures f == V1 <==> totLen >= V0Limit && Version(totLen) == 1
  {
    if totLen < V0Limit then V0
    else if Version(totLen) != 1 then UnknownVersion
    else V1
  }

  /** Both entry points read any v1 tag as v1. */
  lemma TagClassifiedV1(n: nat)
    requires n <= LengthMask
    ensures ClassifyBiovec(Tag(n)) == V1
    ensures ClassifySingle(Tag(n)) == V1
  {
    TagRoundTrip(n);
  }

  /** The two classifiers agree on every leading word except exactly 128 KiB,
      which the whole-stream decoder reads as v0 and the single-page decoder
      rejects as an unknown version. */
  lemma {:induction false} ClassifiersDisagreeOnlyAtLimit(totLen: nat)
    ensures ClassifyBiovec(totLen) != ClassifySingle(totLen) <==> totLen == V0Limit
    ensures totLen == V0Limit ==>
              ClassifyBiovec(totLen) == V0 && ClassifySingle(totLen) == UnknownVersion
  {
    if totLen == V0Limit {
      assert Version(totLen) == 0;
    }
  }
}

/** Kernel error returns used by the wrapper. */
module Errno {
  /** -ENOMEM */
  const NoMem: int := -12
  /** -EIO */
  const Io: int := -5
}

=== FILE: dispatch.dfy ===
/**
 * lz4_decompress_biovec (fs/btrfs/lz4_wrapper.c): the leading word of the
 * compressed stream picks the decoder. At most 128 KiB is a v0 total and
 * the stream goes to the v0 chunk walk; above it the word must carry
 * version 1 and the stream goes to the v1 expander; anything else is -EIO.
 */
module Dispatch {
  import opened Bytes
  import opened Lz4
  import opened ContainerHeader
  import Errno
  import opened V0Layout
  import opened V0Decoder
  import opened V1Codec

  /** Which decoder handled the stream, and what it reported. */
  datatype BiovecOutcome =
    | ViaV0(ret: int, chunks: seq<ChunkRead>)
    | ViaV1(v1: V1Decompressed)
    | Rejected

  /** The value lz4_decompress_biovec returns. */
  function BiovecReturn(o: BiovecOutcome): (ret: int)
    ensures o.Rejected? ==> ret == Errno.Io
    ensures o.ViaV0? ==> ret == o.ret
    ensures o.ViaV1? ==> ret == o.v1.ret
  {
    match o
    case ViaV0(ret, _) => ret
    case ViaV1(v1) => v1.ret
    case Rejected => Errno.Io
  }

  /** The leading word of the first source page. */
  function LeadingWord(src: seq<byte>): nat
    requires |src| >= LenBytes
  {
    ReadLe32(src[..LenBytes])
  }

  /** lz4_decompress_biovec. `src` is the `srclen` bytes of the source pages
      laid end to end, padded to whole pages; `cs` names, for the statement
      of the v0 round trip only, the chunks a v0 layout would hold. */
  method DecompressBiovec(src: seq<byte>, srclen: nat, offsets: seq<int>, env: MapEnv,
                          decoder: Decoder, expand: Expander, stitch: Stitcher,
                          ghost cs: seq<seq<byte>>) returns (o: BiovecOutcome)
    requires 0 < srclen && |src| == CountPages(srclen) * PageSize
    ensures |src| >= PageSize
    ensures o.ViaV0? <==> LeadingWord(src) <= V0Limit
    ensures o.ViaV1? <==> LeadingWord(src) > V0Limit && Version(LeadingWord(src)) == 1
    ensures o.Rejected? <==> ClassifyBiovec(LeadingWord(src)) == UnknownVersion
    ensures o.ViaV1? ==> o.v1 == DecompressV1(src, offsets, env, expand)
    ensures o.ViaV0? ==> (o.ret == 0 || o.ret == -1) && WalkedWell(src, decoder, stitch, o.chunks)
    ensures o.ViaV0? && HoldsLayout(src, srclen, cs) && (forall d, a, b :: stitch(d, a, b)) ==>
              o.ret == 0 && Payloads(o.chunks) == cs
    // the v0 walk runs up to the leading word clamped to srclen
    ensures |src| % PageSize == 0
    ensures o.ViaV0? ==>
              var w := WalkFrom(src, Min(srclen, LeadingWord(src)), decoder, stitch, LenBytes, 0);
              o.ret == w.ret && o.chunks == w.chunks
  {
    WholePages(CountPages(srclen));
    var totLen := LeadingWord(src);
    match ClassifyBiovec(totLen)
    case V0 =>
      var ret, chunks := DecompressV0(src, srclen, decoder, stitch, cs);
      o := ViaV0(ret, chunks);
    case UnknownVersion =>
      o := Rejected;
    case V1 =>
      o := ViaV1(DecompressV1(src, offsets, env, expand));
  }

  /** A container of lz4_compress_pages_generic, stored in whole pages and
      handed to lz4_decompress_biovec with every mapping in place, goes to
      the v1 expander, which gives back the input. */
  method CompressThenDecompressV1(data: seq<byte>, nrDest: nat, env: CompressEnv,
                                  compress: Compressor, bound: Bound, expand: Expander,
                                  decoder: Decoder, stitch: Stitcher, offsets: seq<int>, junk: seq<byte>)
    returns (r: V1Compressed, o: BiovecOutcome)
    requires |compress(data)| + V1HeaderBytes <= bound(|data| + V1HeaderBytes)
    requires |compress(data)| <= LengthMask && |data| < U32Limit
    requires ExpandInverts(expand, compress)
    requires |junk| >= PageSize
    ensures r == CompressV1(data, nrDest, env, compress, bound)
    ensures r.ret == 0 ==>
              && o.ViaV1? && BiovecReturn(o) == 0
              && o.v1.output.Some? && o.v1.output.value == Expanded(|compress(data)|, data)
  {
    r := CompressV1(data, nrDest, env, compress, bound);
    if r.ret != 0 {
      return r, Rejected;
    }
    CompressedHeaderReadsBack(data, nrDest, env, compress, bound);
    var c := r.container;
    var t := |c|;
    var src := c + junk[..CountPages(t) * PageSize - t];
    assert src[..LenBytes] == c[..LenBytes];
    ReadLe32Prefix(c[..LenBytes], c[LenBytes..]);
    assert c == c[..LenBytes] + c[LenBytes..];
    assert src[LenBytes..] == c[LenBytes..] + junk[..CountPages(t) * PageSize - t];
    ReadLe32Prefix(c[LenBytes..], junk[..CountPages(t) * PageSize - t]);
    assert src[V1HeaderBytes..] == c[V1HeaderBytes..] + junk[..CountPages(t) * PageSize - t];
    o := DecompressBiovec(src, t, offsets, MapEnv(true, true), decoder, expand, stitch, []);
  }
}

=== FILE: intelli_plug.dfy ===
/**
 * The decision logic of the intelli_plug CPU-hotplug governor
 * (drivers/cpufreq/intelli_plug.c): every sampling tick turns the average
 * run-queue length into a wanted CPU count of 1 or 2, a persistence counter
 * keeps a second CPU up for a while after it was wanted, and cpu 1 is taken
 * down or brought up accordingly. Turning the screen on or off brings all
 * CPUs up or takes the big ones down.
 *
 * The load averages and the online mask are inputs of each step; cpu_up and
 * cpu_down are recorded as actions rather than performed.
 */
module IntelliPlug {
  import opened Bytes

  // ---------------------------------------------------------------------
  // Constants

  const UintMax: nat := U32Limit - 1
  /** THREAD_CAPACITY: 265 less CAPACITY_RESERVE. */
  const ThreadCapacity: nat := 265 - 50
  const MultFactor: nat := 4
  const DivFactor: nat := 100000

  /** One entry of a threshold table: THREAD_CAPACITY * x * MULT_FACTOR / DIV_FACTOR. */
  function Scaled(x: nat): nat
  {
    ThreadCapacity * x * MultFactor / DivFactor
  }

  /** nr_run_profiles: balance, performance, conservative, eco,
      eco_extreme, disable. */
  const Profiles: seq<seq<nat>> := [
    [Scaled(625), Scaled(875), Scaled(1125), UintMax],
    [Scaled(380), Scaled(625), Scaled(875), UintMax],
    [Scaled(875), Scaled(1625), Scaled(2125), UintMax],
    [Scaled(380), UintMax],
    [Scaled(750), UintMax],
    [0, 0, 0, UintMax]
  ]

  /** nr_run_profile_sel. */
  const ProfileSel: nat := 3
  /** NR_RUN_ECO_MODE_PROFILE: the index of the eco table. */
  const EcoProfile: nat := 3
  /** nr_run_hysteresis = NR_RUN_HYSTERESIS_DUAL. */
  const Hysteresis: nat := 4
  /** FSHIFT of the kernel's fixed-point load averages. */
  const FShift: nat := 11
  /** nr_fshift as calculate_thread_stats sets it. */
  const NrFShift: nat := 1
  /** CPU_NR_THRESHOLD: (THREAD_CAPACITY << 1) + THREAD_CAPACITY / 2. */
  const CpuNrThreshold: nat := ThreadCapacity * 2 + ThreadCapacity / 2
  /** DUAL_PERSISTENCE: 2500 / DEF_SAMPLING_MS ticks. */
  const DualPersistence: nat := 2500 / 268

  /** `x << k` on an unsigned int. */
  function Shl32(x: nat, k: nat): (r: nat)
    ensures r < U32Limit
  {
    x * Pow2(k) % U32Limit
  }

  /** 2 to the power k. */
  function Pow2(k: nat): nat
  {
    if k == 0 then 1 else 2 * Pow2(k - 1)
  }

  /** The shifts the governor uses: by 0, by 1 and by FSHIFT - nr_fshift. */
  lemma ShiftValues()
    ensures Pow2(0) == 1 && Pow2(1) == 2 && Pow2(FShift - NrFShift) == 1024
  {
    assert Pow2(2) == 4;
    assert Pow2(4) == 4 * Pow2(2);
    assert Pow2(6) == 4 * Pow2(4);
    assert Pow2(8) == 4 * Pow2(6);
    assert Pow2(10) == 4 * Pow2(8);
  }

  /** The tables as the compiler folds them: every first threshold is at
      most 7, and every table has at least the two entries of the eco
      table. */
  lemma ProfileValues()
    ensures Profiles[0] == [5, 7, 9, UintMax]
    ensures Profiles[1] == [3, 5, 7, UintMax]
    ensures Profiles[2] == [7, 13, 18, UintMax]
    ensures Profiles[3] == [3, UintMax]
    ensures Profiles[4] == [6, UintMax]
    ensures CpuNrThreshold == 537 && DualPersistence == 9
    ensures forall p :: 0 <= p < |Profiles| ==> |Profiles[p]| >= |Profiles[EcoProfile]| && Profiles[p][0] <= 7
  {
  }

  // ---------------------------------------------------------------------
  // calculate_thread_stats

  /** The loop of calculate_thread_stats from `nrRun` on: the first
      `nr_run` whose threshold (raised by the hysteresis at or above the
      previous answer) the load does not exceed, or `size` when none. */
  function Scan(table: seq<nat>, size: nat, avg: nat, last: nat, nrRun: nat): (r: nat)
    requires 1 <= nrRun <= size <= |table|
    ensures nrRun <= r <= size
    decreases size - nrRun
  {
    if nrRun >= size then nrRun
    else
      var threshold := (table[nrRun - 1] + (if last <= nrRun then Hysteresis else 0)) % U32Limit;
      if avg <= Shl32(threshold, FShift - NrFShift) then nrRun
      else Scan(table, size, avg, last, nrRun + 1)
  }

  /** The threshold the first step of the loop compares against. */
  function FirstThreshold(profile: nat, last: nat): nat
    requires profile < |Profiles|
  {
    (Profiles[profile][0] + (if last <= 1 then Hysteresis else 0)) * 1024
  }

  /** calculate_thread_stats with `avgNrRunning` the unsigned long of
      avg_nr_running(), truncated to an unsigned int, and `last` the
      nr_run_last of the previous call. The loop is bounded by the size of
      the eco table whatever profile is selected, so the answer is 1 or 2,
      and it is 1 exactly when the load is within the first threshold. */
  function ThreadStats(avgNrRunning: nat, last: nat, profile: nat): (r: nat)
    requires profile < |Profiles|
    ensures r == 1 || r == 2
    ensures r == 1 <==> avgNrRunning % U32Limit <= FirstThreshold(profile, last)
  {
    ProfileValues();
    ShiftValues();
    Scan(Profiles[profile], |Profiles[EcoProfile]|, avgNrRunning % U32Limit, last, 1)
  }

  /** More load never asks for fewer CPUs. */
  lemma ThreadStatsMonotone(a: nat, b: nat, last: nat, profile: nat)
    requires profile < |Profiles| && a <= b < U32Limit
    ensures ThreadStats(a, last, profile) <= ThreadStats(b, last, profile)
  {
    var t := FirstThreshold(profile, last);
    assert a % U32Limit == a && b % U32Limit == b;
    assert ThreadStats(b, last, profile) == 1 ==> b <= t;
  }

  /** The hysteresis favours one CPU once one CPU was the answer: a load
      that gives 1 after a 2 also gives 1 after a 1. */
  lemma HysteresisKeepsOne(avg: nat, profile: nat)
    requires profile < |Profiles|
    ensures ThreadStats(avg, 2, profile) == 1 ==> ThreadStats(avg, 1, profile) == 1
  {
  }

  // ---------------------------------------------------------------------
  // The online mask, num_online_cpus_little and unplug_cpu

  /** cpu_online_mask: entry c tells whether cpu c is online. */
  type CpuMask = seq<bool>

  predicate Online(mask: CpuMask, cpu: nat)
  {
    cpu < |mask| && mask[cpu]
  }

  /** What the governor asks of the hotplug core. */
  datatype Action = CpuUp(cpu: nat) | CpuDown(cpu: nat)

  /** The online cpus from `i` on that the little-cluster loops do not
      skip (`cpu >= 2 || cpu == 0` is skipped). */
  function CountLittle(mask: CpuMask, i: nat): (n: nat)
    ensures n <= 1
    ensures n == 1 <==> i <= 1 && Online(mask, 1)
    decreases |mask| - i
  {
    if i >= |mask| then 0
    else (if mask[i] && !(i >= 2 || i == 0) then 1 else 0) + CountLittle(mask, i + 1)
  }

  /** num_online_cpus_little: cpu 0, plus cpu 1 when it is online. */
  function NumOnlineLittle(mask: CpuMask): (n: nat)
    ensures n == 1 || n == 2
    ensures n == 2 <==> Online(mask, 1)
  {
    1 + CountLittle(mask, 0)
  }

  /** `cpu_nr_run_threshold << 1 / n`: the division binds tighter, so the
      shift is by 1 / n. */
  function UnplugThreshold(n: nat): nat
    requires n >= 1
  {
    Shl32(CpuNrThreshold, 1 / n)
  }

  /** The threshold is doubled only when one little CPU is online. */
  lemma UnplugThresholdValues()
    ensures UnplugThreshold(1) == 2 * CpuNrThreshold == 1074
    ensures UnplugThreshold(2) == CpuNrThreshold == 537
  {
    ProfileValues();
    ShiftValues();
  }

  /** The loop of unplug_cpu from cpu `i` on, with the load of each cpu as
      update_per_cpu_stat stored it in this tick. */
  function UnplugFrom(mask: CpuMask, i: nat, minActive: nat, load: nat -> nat): (actions: seq<Action>)
    ensures forall k :: 0 <= k < |actions| ==> actions[k] == CpuDown(1)
    ensures |actions| <= 1
    ensures |actions| == 1 <==>
              i <= 1 && Online(mask, 1) && minActive < 1 && load(1) < UnplugThreshold(NumOnlineLittle(mask))
    decreases |mask| - i
  {
    if i >= |mask| then []
    else
      var here :=
        if !mask[i] || i >= 2 || i == 0 then []
        else if i > minActive && load(i) < UnplugThreshold(NumOnlineLittle(mask)) then [CpuDown(i)]
        else [];
      here + UnplugFrom(mask, i + 1, minActive, load)
  }

  /** unplug_cpu(minActive): only cpu 1 is ever considered, and it is
      online whenever it is, so the threshold is never the doubled one;
      unplug_cpu(1) takes nothing down. */
  function UnplugCpu(minActive: nat, mask: CpuMask, load: nat -> nat): (actions: seq<Action>)
    ensures actions == [] || actions == [CpuDown(1)]
    ensures actions == [CpuDown(1)] <==> minActive == 0 && Online(mask, 1) && load(1) < CpuNrThreshold
  {
    UnplugThresholdValues();
    UnplugFrom(mask, 0, minActive, load)
  }

  // ---------------------------------------------------------------------
  // intelli_plug_work_fn

  /** The governor's state between ticks. */
  datatype Governor = Governor(active: bool, nrRunLast: nat, persistCount: int)

  /** One tick's inputs: avg_nr_running(), avg_cpu_nr_running(cpu) and the
      online mask. */
  datatype Sample = Sample(avgNrRunning: nat, load: nat -> nat, mask: CpuMask)

  datatype Step = Step(next: Governor, actions: seq<Action>)

  /** No action of the list takes a CPU down. */
  predicate NoDown(actions: seq<Action>)
  {
    forall k :: 0 <= k < |actions| ==> !actions[k].CpuDown?
  }

  /** One run of intelli_plug_work_fn. The run-stat error branch is left
      out: ThreadStats is always 1 or 2. */
  function Tick(g: Governor, s: Sample): (st: Step)
    ensures !g.active ==> st == Step(g, [])
    ensures st.next.active == g.active
    // the counter never goes negative and never exceeds DUAL_PERSISTENCE
    ensures 0 <= g.persistCount <= DualPersistence ==> 0 <= st.next.persistCount <= DualPersistence
    // it is re-armed only from 0, on a tick that wants two CPUs
    ensures st.next.persistCount > g.persistCount ==>
              && g.active && 0 <= g.persistCount <= 1 && st.next.nrRunLast == 2
              && st.next.persistCount == DualPersistence
    // otherwise it counts down by one while positive
    ensures g.active && st.next.persistCount <= g.persistCount ==>
              st.next.persistCount == if g.persistCount > 0 then g.persistCount - 1 else g.persistCount
    // a CPU goes down only on a one-CPU tick whose decrement leaves the
    // counter at 0 (it found it at 0 or 1)
    ensures !NoDown(st.actions) ==>
              && st.actions == [CpuDown(1)] && st.next.nrRunLast == 1 && st.next.persistCount == 0
              && g.persistCount <= 1
    // a CPU comes up only on a two-CPU tick that finds cpu 1 offline
    ensures CpuUp(1) in st.actions ==> st.actions == [CpuUp(1)] && st.next.nrRunLast == 2 && !Online(s.mask, 1)
    ensures forall k :: 0 <= k < |st.actions| ==> st.actions[k].cpu == 1
    // an active tick records the count thread_stats gives
    ensures g.active ==> st.next.nrRunLast == ThreadStats(s.avgNrRunning, g.nrRunLast, ProfileSel)
    // a one-CPU tick takes cpu 1 down exactly when the counter reaches 0, cpu 1
    // is online and its load is under CPU_NR_THRESHOLD; otherwise nothing
    ensures g.active && st.next.nrRunLast == 1 ==>
              && (st.actions == [] || st.actions == [CpuDown(1)])
              && (st.actions == [CpuDown(1)] <==>
                    0 <= g.persistCount <= 1 && Online(s.mask, 1) && s.load(1) < CpuNrThreshold)
    // a two-CPU tick brings cpu 1 up exactly when fewer than two little CPUs
    // are online, takes nothing down, and re-arms a counter that reaches 0
    ensures g.active && st.next.nrRunLast == 2 ==>
              && st.actions == (if NumOnlineLittle(s.mask) < 2 then [CpuUp(1)] else [])
              && (0 <= g.persistCount <= 1 ==> st.next.persistCount == DualPersistence)
  {
    if !g.active then Step(g, [])
    else
      var count := ThreadStats(s.avgNrRunning, g.nrRunLast, ProfileSel);
      var nrCpus := NumOnlineLittle(s.mask);
      var p := if g.persistCount > 0 then g.persistCount - 1 else g.persistCount;
      if count == 1 then
        Step(Governor(g.active, count, p), if p == 0 then UnplugCpu(0, s.mask, s.load) else [])
      else
        var armed := if p == 0 then DualPersistence else p;
        Step(Governor(g.active, count, armed),
             if nrCpus < 2 then [CpuUp(1)] else UnplugCpu(1, s.mask, s.load))
  }

  /** The state after a run of ticks, with what each tick asked for. */
  datatype Trace = Trace(last: Governor, actions: seq<seq<Action>>)

  function Run(g: Governor, ss: seq<Sample>): (t: Trace)
    ensures |t.actions| == |ss|
    decreases |ss|
  {
    if |ss| == 0 then Trace(g, [])
    else
      var st := Tick(g, ss[0]);
      var rest := Run(st.next, ss[1..]);
      Trace(rest.last, [st.actions] + rest.actions)
  }

  /** While the counter is above the number of ticks, no tick takes a CPU
      down and every tick counts it down by one. */
  lemma {:induction false} CountdownHoldsOff(g: Governor, ss: seq<Sample>)
    requires g.active && |ss| < g.persistCount
    decreases |ss|
    ensures Run(g, ss).last.persistCount == g.persistCount - |ss|
    ensures Run(g, ss).last.active
    ensures forall k :: 0 <= k < |ss| ==> NoDown(Run(g, ss).actions[k])
  {
    if |ss| > 0 {
      var st := Tick(g, ss[0]);
      assert st.next.persistCount == g.persistCount - 1;
      CountdownHoldsOff(st.next, ss[1..]);
      var t := Run(g, ss);
      forall k | 0 <= k < |ss|
        ensures NoDown(t.actions[k])
      {
        if k > 0 {
          assert t.actions[k] == Run(st.next, ss[1..]).actions[k - 1];
        }
      }
    }
  }

  /** A tick that arms the counter takes no CPU down, and neither do the
      DUAL_PERSISTENCE - 1 ticks after it, after which the counter is at 1:
      the next one-CPU tick may take cpu 1 down again. */
  lemma {:induction false} ArmingHoldsOff(g: Governor, s: Sample, ss: seq<Sample>)
    requires 0 <= g.persistCount <= DualPersistence
    requires Tick(g, s).next.persistCount > g.persistCount
    requires |ss| == DualPersistence - 1
    ensures NoDown(Tick(g, s).actions)
    ensures forall k :: 0 <= k < |ss| ==> NoDown(Run(Tick(g, s).next, ss).actions[k])
    ensures Run(Tick(g, s).next, ss).last.persistCount == 1
  {
    ProfileValues();
    CountdownHoldsOff(Tick(g, s).next, ss);
  }

  // ---------------------------------------------------------------------
  // cpu_all_ctrl

  /** The cpu visited at loop index i of the bring-up loop (4 <= i < 11). */
  function Visit(i: nat): nat
    requires 4 <= i < 11
  {
    if i >= 8 then 11 - i else i
  }

  /** The order the bring-up loop visits cpus in. */
  function VisitOrder(): (order: seq<nat>)
    ensures |order| == 7
    ensures forall k :: 0 <= k < 7 ==> order[k] == Visit(4 + k)
  {
    seq(7, k requires 0 <= k < 7 => Visit(4 + k))
  }

  /** The loop visits 4, 5, 6, 7, 3, 2, 1: each of cpus 1..7 once, never
      cpu 0. */
  lemma VisitOrderIsBigThenLittle()
    ensures VisitOrder() == [4, 5, 6, 7, 3, 2, 1]
    ensures forall j :: 1 <= j <= 7 <==> j in VisitOrder()
    ensures forall a, b :: 0 <= a < b < 7 ==> VisitOrder()[a] != VisitOrder()[b]
  {
  }

  /** Where cpu c comes in the visit order: 0..6 for cpus 1..7, and 7 (past
      the end) for any other cpu. */
  function VisitIndex(c: nat): (k: nat)
    ensures 1 <= c <= 7 <==> k < 7
    ensures k < 7 ==> Visit(4 + k) == c
  {
    if 4 <= c <= 7 then c - 4 else if 1 <= c <= 3 then 7 - c else 7
  }

  /** The bring-up loop from index i: cpu_up for every visited cpu that is
      offline, in the visit order. */
  function BringUpFrom(mask: CpuMask, i: nat): (actions: seq<Action>)
    requires 4 <= i <= 11
    ensures forall a :: a in actions ==> a.CpuUp? && 1 <= a.cpu <= 7 && !Online(mask, a.cpu)
    ensures forall j :: 1 <= j <= 7 && !Online(mask, j) && i - 4 <= VisitIndex(j) ==>
                          CpuUp(j) in actions
    // every cpu comes from index i on, and in the order the loop visits them
    ensures forall k :: 0 <= k < |actions| ==> i - 4 <= VisitIndex(actions[k].cpu) < 7
    ensures forall k, m :: 0 <= k < m < |actions| ==> VisitIndex(actions[k].cpu) < VisitIndex(actions[m].cpu)
    decreases 11 - i
  {
    if i >= 11 then []
    else
      var head, rest := (if !Online(mask, Visit(i)) then [CpuUp(Visit(i))] else []), BringUpFrom(mask, i + 1);
      VisitedAhead(mask, i, head, rest);
      head + rest
  }

  /** Visiting index i ahead of the cpus the loop brings up after it keeps
      the bring-up loop's account. */
  lemma VisitedAhead(mask: CpuMask, i: nat, head: seq<Action>, rest: seq<Action>)
    requires 4 <= i < 11
    requires head == if !Online(mask, Visit(i)) then [CpuUp(Visit(i))] else []
    requires forall a :: a in rest ==> a.CpuUp? && 1 <= a.cpu <= 7 && !Online(mask, a.cpu)
    requires forall j :: 1 <= j <= 7 && !Online(mask, j) && i - 3 <= VisitIndex(j) ==>
                           CpuUp(j) in rest
    requires forall k :: 0 <= k < |rest| ==> i - 3 <= VisitIndex(rest[k].cpu) < 7
    requires forall k, m :: 0 <= k < m < |rest| ==> VisitIndex(rest[k].cpu) < VisitIndex(rest[m].cpu)
    ensures var actions := head + rest;
            && (forall a :: a in actions ==> a.CpuUp? && 1 <= a.cpu <= 7 && !Online(mask, a.cpu))
            && (forall j :: 1 <= j <= 7 && !Online(mask, j) && i - 4 <= VisitIndex(j) ==>
                              CpuUp(j) in actions)
            && (forall k :: 0 <= k < |actions| ==> i - 4 <= VisitIndex(actions[k].cpu) < 7)
            && (forall k, m :: 0 <= k < m < |actions| ==> VisitIndex(actions[k].cpu) < VisitIndex(actions[m].cpu))
  {
    assert VisitIndex(Visit(i)) == i - 4;
  }

  /** The take-down loop from cpu i down to cpu 2: cpu_down for every
      online cpu. */
  function TakeDownFrom(mask: CpuMask, i: nat): (actions: seq<Action>)
    ensures forall a :: a in actions ==> a.CpuDown? && 2 <= a.cpu <= i && Online(mask, a.cpu)
    ensures forall j :: 2 <= j <= i && Online(mask, j) ==> CpuDown(j) in actions
    // from the highest cpu down
    ensures forall k, m :: 0 <= k < m < |actions| ==> actions[k].cpu > actions[m].cpu
    decreases i
  {
    if i <= 1 then []
    else (if Online(mask, i) then [CpuDown(i)] else []) + TakeDownFrom(mask, i - 1)
  }

  /** The bring-up half of cpu_all_ctrl: cpu_up for every offline cpu
      among 1..7, in the visit order. */
  function BringAllUp(mask: CpuMask): (actions: seq<Action>)
    ensures forall j :: 1 <= j <= 7 ==> (CpuUp(j) in actions <==> !Online(mask, j))
    ensures forall a :: a in actions ==> a.CpuUp? && a.cpu != 0
    ensures forall k, m :: 0 <= k < m < |actions| ==> VisitIndex(actions[k].cpu) < VisitIndex(actions[m].cpu)
  {
    BringUpFrom(mask, 4)
  }

  /** The take-down half of cpu_all_ctrl: the loop starts at
      setup_max_cpus - 1 as an unsigned int, UINT_MAX for 0, and takes
      down every online cpu from there to 2, highest first. */
  function TakeBigDown(mask: CpuMask, setupMaxCpus: nat): (actions: seq<Action>)
    requires setupMaxCpus < U32Limit
    ensures var top := if setupMaxCpus == 0 then UintMax else setupMaxCpus - 1;
            && (forall j :: 2 <= j <= top ==> (CpuDown(j) in actions <==> Online(mask, j)))
            && (forall a :: a in actions ==> a.CpuDown? && 2 <= a.cpu <= top)
    ensures 0 < setupMaxCpus ==> forall a :: a in actions ==> a.cpu < setupMaxCpus
    ensures forall k, m :: 0 <= k < m < |actions| ==> actions[k].cpu > actions[m].cpu
  {
    assert 0 < setupMaxCpus ==> (setupMaxCpus + UintMax) % U32Limit == setupMaxCpus - 1;
    TakeDownFrom(mask, (setupMaxCpus + UintMax) % U32Limit)
  }

  /** cpu_all_ctrl(online) with `setupMaxCpus` the boot parameter
      setup_max_cpus. Bringing up switches the governor off and brings up
      every offline cpu among 1..7, in the visit order; taking down (for
      the screen going off) takes down every online cpu from
      setup_max_cpus - 1 (an unsigned int) down to 2 and switches the
      governor on. Each does nothing when the governor is already in the
      state it sets. */
  function CpuAllCtrl(g: Governor, online: bool, mask: CpuMask, setupMaxCpus: nat): (st: Step)
    requires setupMaxCpus < U32Limit
    ensures online && g.active ==>
              && st.next == g.(active := false)
              && (forall j :: 1 <= j <= 7 ==> (CpuUp(j) in st.actions <==> !Online(mask, j)))
              && (forall a :: a in st.actions ==> a.CpuUp? && a.cpu != 0)
              && (forall k, m :: 0 <= k < m < |st.actions| ==>
                                   VisitIndex(st.actions[k].cpu) < VisitIndex(st.actions[m].cpu))
    // the loop starts at setup_max_cpus - 1 as an unsigned int: UINT_MAX for 0
    ensures !online && !g.active ==>
              var top := if setupMaxCpus == 0 then UintMax else setupMaxCpus - 1;
              && st.next == g.(active := true)
              && (forall j :: 2 <= j <= top ==> (CpuDown(j) in st.actions <==> Online(mask, j)))
              && (forall a :: a in st.actions ==> a.CpuDown? && 2 <= a.cpu <= top)
              && (0 < setupMaxCpus ==> forall a :: a in st.actions ==> a.cpu < setupMaxCpus)
              && (forall k, m :: 0 <= k < m < |st.actions| ==> st.actions[k].cpu > st.actions[m].cpu)
    ensures online != g.active ==> st == Step(g, [])
  {
    if online then
      if g.active then Step(g.(active := false), BringAllUp(mask)) else Step(g, [])
    else
      if !g.active then Step(g.(active := true), TakeBigDown(mask, setupMaxCpus)) else Step(g, [])
  }
}

=== FILE: single_page.dfy ===
/**
 * lz4_decompress (fs/btrfs/lz4_wrapper.c): decode a small compressed
 * stream (an inline extent) into one already mapped destination page, then,
 * for a read that starts `start_byte` bytes into the decoded data, move the
 * wanted bytes down to the front of the page.
 *
 * The source is `srclen` bytes; the page holds PageSize bytes whose earlier
 * contents are a parameter. The source lets the LZ4 primitives and the
 * memmove reach outside the source or the page for some inputs; the model
 * stops there with OutOfBounds instead of inventing what such an access
 * reads or overwrites.
 */
module SinglePage {
  import opened Bytes
  import opened Lz4
  import opened ContainerHeader
  import Errno
  import opened V0Layout
  import opened V0Encoder
  import opened V1Codec

  /** The page after the primitive has run, with the decoded length
      (`out_len`), or why no page came out. */
  datatype PageDecode =
    | DecodedPage(page: seq<byte>, outLen: nat)
    | DecodeFailed(ret: int)
    | DecodeOutOfBounds

  /** The outcome of lz4_decompress: a return of 0 with the final page, an
      error return, or an access outside the source or the page. */
  datatype PageOutcome =
    | Filled(page: seq<byte>)
    | Failed(ret: int)
    | OutOfBounds

  /** `out` written at the front of the page; the rest keeps its bytes. */
  function WriteFront(page: seq<byte>, out: seq<byte>): (p: seq<byte>)
    requires |out| <= |page|
    ensures |p| == |page|
    ensures p[..|out|] == out
    ensures p[|out|..] == page[|out|..]
  {
    out + page[|out|..]
  }

  /** Everything of lz4_decompress before the start_byte shift. */
  function DecodeIntoPage(src: seq<byte>, mapped: bool, decoder: Decoder, expand: Expander,
                          page: seq<byte>): (d: PageDecode)
    requires |page| == PageSize
    ensures |src| < LenBytes ==> d == DecodeFailed(Errno.Io)
    ensures |src| >= LenBytes && !mapped ==> d == DecodeFailed(Errno.NoMem)
    ensures |src| >= LenBytes && mapped && ClassifySingle(ReadLe32(src)) == UnknownVersion ==>
              d == DecodeFailed(Errno.Io)
    ensures d.DecodeFailed? ==> d.ret in {Errno.Io, Errno.NoMem, -1}
    ensures d.DecodedPage? ==> |d.page| == PageSize && d.outLen <= PageSize
  {
    if |src| < LenBytes then DecodeFailed(Errno.Io)
    else if !mapped then DecodeFailed(Errno.NoMem)
    else
      var totLen := ReadLe32(src);
      match ClassifySingle(totLen)
      case UnknownVersion => DecodeFailed(Errno.Io)
      case V0 =>
        // in_len = tot_len bytes after the leading word
        if LenBytes + totLen > |src| then DecodeOutOfBounds
        else
          (match decoder(src[LenBytes .. LenBytes + totLen], PageSize)
           case Corrupt(_) => DecodeFailed(-1)
           case Produced(out) =>
             if |out| > PageSize then DecodeOutOfBounds
             else DecodedPage(WriteFront(page, out), |out|))
      case V1 =>
        if |src| < V1HeaderBytes then DecodeOutOfBounds
        else
          var inLen := MaskedLength(totLen);
          var outLen := ReadLe32(src[LenBytes..]);
          // LZ4_uncompress writes out_len bytes into the one page
          if outLen > PageSize then DecodeOutOfBounds
          else
            match expand(src[V1HeaderBytes..], outLen)
            case Malformed(_) => DecodeFailed(-1)
            case Expanded(consumed, out) =>
              if consumed != inLen then DecodeFailed(-1)
              else if |out| > PageSize then DecodeOutOfBounds
              else DecodedPage(WriteFront(page, out), outLen)
  }

  /** The v0 branch hands the primitive the `tot_len` bytes after the
      leading word, with one page of output room; the v1 branch succeeds
      exactly when the primitive consumes the masked compressed length. */
  lemma DecodeIntoPageBranches(src: seq<byte>, decoder: Decoder, expand: Expander, page: seq<byte>)
    requires |page| == PageSize && |src| >= LenBytes
    ensures var t := ReadLe32(src);
            ClassifySingle(t) == V0 && LenBytes + t <= |src| ==>
              match decoder(src[LenBytes .. LenBytes + t], PageSize)
              case Corrupt(_) => DecodeIntoPage(src, true, decoder, expand, page) == DecodeFailed(-1)
              case Produced(out) =>
                |out| <= PageSize ==>
                  DecodeIntoPage(src, true, decoder, expand, page) == DecodedPage(WriteFront(page, out), |out|)
    ensures var t := ReadLe32(src);
            ClassifySingle(t) == V1 && |src| >= V1HeaderBytes && ReadLe32(src[LenBytes..]) <= PageSize ==>
              var e := expand(src[V1HeaderBytes..], ReadLe32(src[LenBytes..]));
              (DecodeIntoPage(src, true, decoder, expand, page).DecodedPage? <==>
                 e.Expanded? && e.consumed == MaskedLength(t) && |e.bytes| <= PageSize)
  {
  }

  /** memmove(kaddr, kaddr + start, count): the `count` bytes from `start`
      move to the front; the bytes after the first `count` stay. */
  function Shift(page: seq<byte>, start: nat, count: nat): (p: seq<byte>)
    requires start + count <= |page|
    ensures |p| == |page|
    ensures forall i :: 0 <= i < count ==> p[i] == page[start + i]
    ensures forall i :: count <= i < |page| ==> p[i] == page[i]
  {
    page[start .. start + count] + page[count..]
  }

  /** min_t(unsigned long, destlen, out_len - start_byte): the subtraction
      is on unsigned longs and wraps when start_byte passes out_len. */
  function MoveCount(outLen: nat, start: nat, destlen: nat): (n: nat)
    requires outLen < U64Limit && start < U64Limit
    ensures start <= outLen ==> n == Min(destlen, outLen - start)
    ensures start > outLen ==> n == Min(destlen, U64Limit - (start - outLen))
  {
    Min(destlen, (outLen - start) % U64Limit)
  }

  /** The start_byte step of lz4_decompress on a decoded page. */
  function MoveDown(page: seq<byte>, outLen: nat, start: nat, destlen: nat): (o: PageOutcome)
    requires |page| == PageSize && outLen <= PageSize && start < U64Limit
    ensures start == 0 ==> o == Filled(page)
    ensures start != 0 && start + MoveCount(outLen, start, destlen) > PageSize ==> o == OutOfBounds
    ensures start != 0 && start + MoveCount(outLen, start, destlen) <= PageSize ==>
              o == Filled(Shift(page, start, MoveCount(outLen, start, destlen)))
  {
    if start == 0 then Filled(page)
    else
      var count := MoveCount(outLen, start, destlen);
      if start + count > PageSize then OutOfBounds
      else Filled(Shift(page, start, count))
  }

  /** lz4_decompress(ws, src, page, start_byte, |src|, destlen). */
  function DecompressPage(src: seq<byte>, mapped: bool, decoder: Decoder, expand: Expander,
                          page: seq<byte>, start: nat, destlen: nat): (o: PageOutcome)
    requires |page| == PageSize && start < U64Limit
    ensures |src| < LenBytes ==> o == Failed(Errno.Io)
    ensures o.Failed? <==> DecodeIntoPage(src, mapped, decoder, expand, page).DecodeFailed?
    ensures o.Failed? ==> o.ret in {Errno.Io, Errno.NoMem, -1}
    ensures o.Filled? ==> |o.page| == PageSize
  {
    match DecodeIntoPage(src, mapped, decoder, expand, page)
    case DecodedPage(p, outLen) => MoveDown(p, outLen, start, destlen)
    case DecodeFailed(ret) => Failed(ret)
    case DecodeOutOfBounds => OutOfBounds
  }

  /** A read from `start` inside the decoded data returns
      min(destlen, out_len - start) bytes, and they are the bytes a read
      from 0 finds at `start`. */
  lemma PartialReadIsSliceOfFullRead(src: seq<byte>, mapped: bool, decoder: Decoder, expand: Expander,
                                     page: seq<byte>, start: nat, destlen: nat)
    requires |page| == PageSize
    requires DecodeIntoPage(src, mapped, decoder, expand, page).DecodedPage?
    requires 0 < start <= DecodeIntoPage(src, mapped, decoder, expand, page).outLen
    ensures var outLen := DecodeIntoPage(src, mapped, decoder, expand, page).outLen;
            var n := Min(destlen, outLen - start);
            && DecompressPage(src, mapped, decoder, expand, page, 0, destlen).Filled?
            && DecompressPage(src, mapped, decoder, expand, page, start, destlen).Filled?
            && DecompressPage(src, mapped, decoder, expand, page, start, destlen).page[..n]
               == DecompressPage(src, mapped, decoder, expand, page, 0, destlen).page[start .. start + n]
  {
    var d := DecodeIntoPage(src, mapped, decoder, expand, page);
    var n := Min(destlen, d.outLen - start);
    assert MoveCount(d.outLen, start, destlen) == n;
    var moved := Shift(d.page, start, n);
    assert DecompressPage(src, mapped, decoder, expand, page, start, destlen) == Filled(moved);
    assert moved[..n] == d.page[start .. start + n];
  }

  /** A start past the decoded data wraps the unsigned count: a destlen
      that keeps the move inside the page moves destlen bytes that the
      decoder never wrote there. */
  lemma StartPastOutputMovesDestlen(page: seq<byte>, outLen: nat, start: nat, destlen: nat)
    requires |page| == PageSize && outLen < start && start + destlen <= PageSize
    ensures MoveCount(outLen, start, destlen) == destlen
    ensures MoveDown(page, outLen, start, destlen) == Filled(Shift(page, start, destlen))
  {
  }

  /** A v1 container of one page of data (as lz4_compress_pages_generic
      lays it out), followed by anything, decodes into the page: the
      expander consumes exactly the compressed length the tag carries. */
  lemma V1ContainerFillsPage(data: seq<byte>, compress: Compressor, decoder: Decoder, expand: Expander,
                             page: seq<byte>, junk: seq<byte>, destlen: nat)
    requires |page| == PageSize && |data| <= PageSize
    requires |compress(data)| <= LengthMask
    requires ExpandInverts(expand, compress)
    ensures DecompressPage(V1Container(|compress(data)|, |data|, compress(data)) + junk,
                           true, decoder, expand, page, 0, destlen)
            == Filled(WriteFront(page, data))
  {
    var c := compress(data);
    var src := V1Container(|c|, |data|, c) + junk;
    assert src == Le32(Tag(|c|)) + (Le32(|data|) + (c + junk));
    ReadLe32Prefix(Le32(Tag(|c|)), Le32(|data|) + (c + junk));
    Le32RoundTrip(Tag(|c|));
    TagClassifiedV1(|c|);
    assert src[LenBytes..] == Le32(|data|) + (c + junk);
    ReadLe32Prefix(Le32(|data|), c + junk);
    Le32RoundTrip(|data|);
    assert src[V1HeaderBytes..] == c + junk;
    assert c <= c + junk;
  }

  /** The stream the v0 branch reads: a leading word under 128 KiB and
      that many LZ4 bytes of one page of data, which decode into the page. */
  lemma LeadingLengthFillsPage(data: seq<byte>, compress: Compressor, decoder: Decoder, expand: Expander,
                               page: seq<byte>, destlen: nat)
    requires |page| == PageSize && 0 < |data| <= PageSize
    requires |compress(data)| < V0Limit
    requires Inverts(decoder, compress)
    ensures DecompressPage(Le32(|compress(data)|) + compress(data), true, decoder, expand, page, 0, destlen)
            == Filled(WriteFront(page, data))
  {
    var c := compress(data);
    var src := Le32(|c|) + c;
    ReadLe32Prefix(Le32(|c|), c);
    Le32RoundTrip(|c|);
    assert src[LenBytes .. LenBytes + |c|] == c;
  }

  /** A container of lz4_compress_pages_v0 under 128 KiB is not read by
      the single-page decoder: its leading word counts the word itself, so
      the v0 branch asks for four bytes past the end of the source. */
  lemma V0ContainerOverrunsSinglePage(r: V0Compressed, data: seq<byte>, compress: Compressor, maxOut: nat,
                                      decoder: Decoder, expand: Expander, page: seq<byte>)
    requires |page| == PageSize
    requires Succeeded(r, data, compress, maxOut) && r.totalOut < V0Limit
    ensures DecodeIntoPage(r.container, true, decoder, expand, page) == DecodeOutOfBounds
  {
    ReadLe32Prefix(Le32(r.totalOut), Layout(Chunks(data, r.totalIn, compress)));
    Le32RoundTrip(r.totalOut);
  }
}

=== FILE: v0_decoder.dfy ===
/**
 * The v0 (streaming) decoder, the found_v0_container part of
 * lz4_decompress_biovec in fs/btrfs/lz4_wrapper.c: walk the chunks of a v0
 * container page by page, hand each chunk to the LZ4 decoder with its
 * output capped at one page, and pass each decoded piece on to the caller's
 * pages. The source pages are one flat byte stream `src` of whole pages;
 * the position `pos` with `left` bytes of room in its page stands for the
 * source's (page_in_index, in_offset, in_page_bytes_left).
 */
module V0Decoder {
  import opened Bytes
  import opened Lz4
  import opened V0Layout

  /** btrfs_decompress_buf2page, which is not part of this model: given the
      decoded piece and the output window [buf_start, tot_out) it copies the
      piece into the caller's pages; false (a 0 return) ends the walk. */
  type Stitcher = (Decoded, nat, nat) -> bool

  /** An int stored into a size_t: taken modulo 2^64. */
  function SizeT(r: int): (n: nat)
    ensures n < U64Limit
    ensures 0 <= r < U64Limit ==> n == r
    ensures -(U64Limit as int) <= r < 0 ==> n == U64Limit + r
  {
    r % U64Limit
  }

  /** A flat position `pos` with `left` bytes of room in a page that lies
      inside the source. */
  predicate InPage(pos: nat, left: nat, srcEnd: nat)
  {
    left <= PageSize && (pos + left) % PageSize == 0 && pos + left <= srcEnd
  }

  /** With at least a length prefix of room left, a prefix read at `pos` lies
      in one page. */
  lemma InPageFits(pos: nat, left: nat, srcEnd: nat)
    requires InPage(pos, left, srcEnd) && LenBytes <= left
    ensures PrefixFits(pos)
  {
    if left < PageSize {
      RoomToPageEnd(pos, left);
    } else {
      assert pos == (pos + left) / PageSize * PageSize - PageSize;
    }
  }

  /** Where the `cont:` loop leaves the walk after a chunk's bytes: at
      position `pos` with `left` bytes of room, tot_in advanced over any
      skipped bytes; `stopped` is the early break once tot_in reaches
      tot_len. */
  datatype Landing = Landed(pos: nat, left: nat, totIn: nat, stopped: bool) | OutOfPages

  /** A chunk that ends at `end` = pos + working inside the source, with
      tot_in already advanced to `end`, and after whose padding either the
      total is reached or another prefix fits in the source: what the
      encoder's layout guarantees for each of its chunks. */
  predicate EndsInLayout(srcEnd: nat, totLen: nat, working: nat, pos: nat, totIn: nat)
  {
    var end := pos + working;
    && totIn == end && end <= srcEnd
    && (end + Pad(end) >= totLen || end + Pad(end) + LenBytes <= srcEnd)
  }

  /** Where a chunk that ends at `end` leaves the inner loop: it skips the
      layout's padding and nothing else, and counts it in tot_in. */
  predicate LandsAfterPad(l: Landing, end: nat, totLen: nat)
  {
    && l.Landed?
    && l.totIn == end + Pad(end)
    && (l.stopped ==> end + Pad(end) >= totLen)
    && (!l.stopped ==> l.pos == end + Pad(end))
  }

  /** Where the inner loop leaves a chunk whose bytes end at `end` (with
      tot_in at `totIn`), stated on the layout: a chunk that runs past the
      last source page runs out; with room for a prefix left the walk stays
      in the page; otherwise it skips the room, counting it in tot_in, and
      stops once tot_in reaches tot_len, runs out when that room reaches the
      end of the source, or moves to the next page. */
  function LandingAfter(srcEnd: nat, totLen: nat, end: nat, totIn: nat): (l: Landing)
    ensures l.Landed? ==> end <= l.pos && end <= srcEnd
    ensures l.Landed? && srcEnd % PageSize == 0 && !l.stopped ==>
              PrefixFits(l.pos) && l.pos + LenBytes <= srcEnd && l.totIn == totIn + (l.pos - end)
  {
    var room := RoomAfter(end);
    RoomAfterBounds(end);
    if end > srcEnd then OutOfPages
    else if LenBytes <= room then
      (if srcEnd % PageSize == 0 && end < srcEnd then
         RoomWithin(end, srcEnd);
         Landed(end, room, totIn, false)
       else Landed(end, room, totIn, false))
    else if totIn + room >= totLen then Landed(end, room, totIn + room, true)
    else if end + room >= srcEnd then OutOfPages
    else
      (if srcEnd % PageSize == 0 then
         BoundaryGap(end + room, srcEnd);
         Landed(end + room, PageSize, totIn + room, false)
       else Landed(end + room, PageSize, totIn + room, false))
  }

  /** The room after a position short of a page boundary stays before it. */
  lemma RoomWithin(pos: nat, bound: nat)
    requires bound % PageSize == 0 && pos <= bound
    ensures pos + RoomAfter(pos) <= bound
  {
    RoomAfterBounds(pos);
    if pos + RoomAfter(pos) > bound {
      BoundaryGap(bound, pos + RoomAfter(pos));
    }
  }

  /** The inner loop of the v0 walk (the fast path is its first turn, the
      copy through the working buffer the rest, and both advance alike):
      step over `working` chunk bytes from `pos`, moving to the next page
      whenever PageSwitch holds and adding the skipped room to tot_in. The
      early break once tot_in reaches tot_len leaves the page unswitched.
      Running past the last source page ends the walk. */
  method Advance(srcEnd: nat, totLen: nat, working: nat, pos: nat, left: nat, totIn: nat) returns (l: Landing)
    requires srcEnd % PageSize == 0 && InPage(pos, left, srcEnd)
    ensures l.Landed? ==> pos + working <= l.pos <= srcEnd
    ensures l.Landed? && !l.stopped ==>
              && InPage(l.pos, l.left, srcEnd) && LenBytes <= l.left
              && l.totIn == totIn + (l.pos - (pos + working))
    ensures l.Landed? && l.stopped ==> l.totIn >= totLen
    // only a chunk that reaches the end of the source runs out of pages
    ensures l.OutOfPages? ==> srcEnd < pos + working + LenBytes
    ensures EndsInLayout(srcEnd, totLen, working, pos, totIn) ==> LandsAfterPad(l, pos + working, totLen)
    // started inside a page, the loop lands where the layout says
    ensures left < PageSize ==> l == LandingAfter(srcEnd, totLen, pos + working, totIn)
  {
    var rest: nat, at: nat, room: nat := working, pos, left;
    while true
      invariant InPage(at, room, srcEnd) && at + rest == pos + working
      invariant left < PageSize ==> room < PageSize || 0 < rest
      decreases rest, if room == 0 then 1 else 0
    {
      var bytes := Min(rest, room);
      rest, room, at := rest - bytes, room - bytes, at + bytes;
      if rest == 0 {
        // the chunk ends here: the room left is the layout's padding
        if room < PageSize {
          RoomToPageEnd(at, room);
        }
        SwitchIsPad(at);
      }
      if !PageSwitch(rest, room) {
        return Landed(at, room, totIn, false);
      }
      var totIn' := totIn + room;
      if rest == 0 && totIn' >= totLen {
        return Landed(at, room, totIn', true);
      }
      if at + room >= srcEnd {
        return OutOfPages;
      }
      NextPageBoundary(at + room);
      BoundaryGap(at + room, srcEnd);
      if rest == 0 {
        return Landed(at + room, PageSize, totIn', false);
      }
      // a page used up mid-chunk has no room to skip
      at, room := at + room, PageSize;
    }
  }

  /** One chunk as the walk handled it: where its prefix was read, the bytes
      handed to the decoder, the decoder's result and the output window
      [buf_start, tot_out) handed to buf2page. */
  datatype ChunkRead = ChunkRead(prefixAt: nat, payload: seq<byte>, decoded: Decoded,
                                 bufStart: nat, totOut: nat)

  /** What the walk establishes about one chunk it handled: the prefix lies
      in one page and gives the payload's length, the payload is the source
      bytes after it, the decoder saw it with a one-page output cap, and
      tot_out moved on by the (size_t) decoder return. */
  predicate ReadFrom(src: seq<byte>, decoder: Decoder, r: ChunkRead)
  {
    && PrefixFits(r.prefixAt)
    && r.prefixAt + LenBytes + |r.payload| <= |src|
    && ReadLe32(src[r.prefixAt .. r.prefixAt + LenBytes]) == |r.payload|
    && src[r.prefixAt + LenBytes .. r.prefixAt + LenBytes + |r.payload|] == r.payload
    && r.decoded == decoder(r.payload, PageSize)
    && r.totOut == (r.bufStart + SizeT(DecodedReturn(r.decoded))) % U64Limit
  }

  /** Consecutive chunks: the first prefix follows the total, each chunk
      starts after the previous one's bytes, and each output window starts
      where the previous one ended (at 0 for the first). */
  ghost predicate Chained(rs: seq<ChunkRead>)
  {
    && (|rs| > 0 ==> rs[0].prefixAt == LenBytes && rs[0].bufStart == 0)
    && forall i, j :: 0 <= i < j < |rs| && j == i + 1 ==> Next(rs[i], rs[j])
  }

  /** Chunk `b` is read after chunk `a`: past a's bytes, with its output
      window starting where a's ended. */
  predicate Next(a: ChunkRead, b: ChunkRead)
  {
    a.prefixAt + LenBytes + |a.payload| <= b.prefixAt && b.bufStart == a.totOut
  }

  /** What the walk promises about the chunks it handled: each was read
      from the source and decoded as ReadFrom says, they are chained, and
      buf2page accepted every one but (possibly) the last. */
  ghost predicate WalkedWell(src: seq<byte>, decoder: Decoder, stitch: Stitcher, rs: seq<ChunkRead>)
  {
    && (forall i :: 0 <= i < |rs| ==> ReadFrom(src, decoder, rs[i]))
    && Chained(rs)
    && (forall i :: 0 <= i < |rs| - 1 ==> stitch(rs[i].decoded, rs[i].bufStart, rs[i].totOut))
  }

  /** The walk between two chunks: what it handled so far is well walked,
      buf2page accepted the last chunk too, and the position and tot_out
      follow the last chunk (at the first prefix with nothing written
      before any chunk). */
  ghost predicate Between(src: seq<byte>, decoder: Decoder, stitch: Stitcher, rs: seq<ChunkRead>,
                    pos: nat, totOut: nat)
  {
    && WalkedWell(src, decoder, stitch, rs)
    && if |rs| == 0 then pos == LenBytes && totOut == 0
       else
         var r := rs[|rs| - 1];
         && stitch(r.decoded, r.bufStart, r.totOut)
         && r.prefixAt + LenBytes + |r.payload| <= pos && r.totOut == totOut
  }

  /** Appending a chunk read at the walk's position keeps the walk well
      walked. */
  lemma ReadAppended(src: seq<byte>, decoder: Decoder, stitch: Stitcher, rs: seq<ChunkRead>, r: ChunkRead)
    requires Between(src, decoder, stitch, rs, r.prefixAt, r.bufStart)
    requires ReadFrom(src, decoder, r)
    ensures WalkedWell(src, decoder, stitch, rs + [r])
  {
    var rs' := rs + [r];
    assert forall i :: 0 <= i < |rs| ==> rs'[i] == rs[i];
  }

  /** If buf2page accepts the appended chunk, the walk is between chunks
      again, past its bytes. */
  lemma ReadAccepted(src: seq<byte>, decoder: Decoder, stitch: Stitcher, rs: seq<ChunkRead>,
                     r: ChunkRead, pos': nat)
    requires WalkedWell(src, decoder, stitch, rs + [r])
    requires stitch(r.decoded, r.bufStart, r.totOut) && r.prefixAt + LenBytes + |r.payload| <= pos'
    ensures Between(src, decoder, stitch, rs + [r], pos', r.totOut)
  {
    assert (rs + [r])[|rs|] == r;
  }

  // ---------------------------------------------------------------------
  // Reading back what the encoder laid out

  /** The payloads the walk handed to the decoder. */
  function Payloads(rs: seq<ChunkRead>): (ps: seq<seq<byte>>)
    ensures |ps| == |rs|
    ensures forall i :: 0 <= i < |rs| ==> ps[i] == rs[i].payload
  {
    if |rs| == 0 then [] else Payloads(rs[..|rs| - 1]) + [rs[|rs| - 1].payload]
  }

  /** A chunk read appended gives its payload appended. */
  lemma PayloadsAppended(rs: seq<ChunkRead>, r: ChunkRead)
    ensures Payloads(rs + [r]) == Payloads(rs) + [r.payload]
  {
    assert (rs + [r])[..|rs|] == rs;
  }

  /** The framed chunk k read from a source that holds the layout after its
      4-byte total. */
  lemma FramedInSource(src: seq<byte>, cs: seq<seq<byte>>, k: nat)
    requires LenBytes + |Layout(cs)| <= |src|
    requires src[LenBytes .. LenBytes + |Layout(cs)|] == Layout(cs)
    requires k < |cs|
    ensures var pos := ChunkStart(cs, k);
            var f := Framed(pos, cs[k]);
            && pos + |f| <= LenBytes + |Layout(cs)|
            && ChunkStart(cs, k + 1) == pos + |f|
            && src[pos .. pos + |f|] == f
  {
    ChunkAt(cs, k);
    var pos := ChunkStart(cs, k);
    var f := Framed(pos, cs[k]);
    PieceWithin(src, Layout(cs), f, LenBytes, pos - LenBytes, pos);
  }

  /** Chunk k of a layout ends at `end`; after its padding comes chunk
      k + 1, or the end of the container, which no prefix can reach. */
  lemma ChunkEnds(cs: seq<seq<byte>>, k: nat)
    requires k < |cs|
    ensures var end := ChunkStart(cs, k) + LenBytes + |cs[k]|;
            && end <= LenBytes + |Layout(cs)|
            && ChunkStart(cs, k + 1) == end + Pad(end)
            && (k + 1 < |cs| ==> ChunkStart(cs, k + 1) + LenBytes <= LenBytes + |Layout(cs)|)
            && (k + 1 == |cs| ==> ChunkStart(cs, k + 1) == LenBytes + |Layout(cs)|)
            // so the chunk ends as EndsInLayout needs
            && (end + Pad(end) >= LenBytes + |Layout(cs)| || end + Pad(end) + LenBytes <= LenBytes + |Layout(cs)|)
  {
    ChunkAt(cs, k);
    if k + 1 < |cs| {
      ChunkAt(cs, k + 1);
    } else {
      assert cs[..k + 1] == cs;
    }
  }

  /** Chunk k of a layout reads back from the source: its prefix gives its
      length and its bytes follow. */
  lemma ChunkReadsBack(src: seq<byte>, cs: seq<seq<byte>>, k: nat)
    requires LenBytes + |Layout(cs)| <= |src|
    requires src[LenBytes .. LenBytes + |Layout(cs)|] == Layout(cs)
    requires k < |cs| && |cs[k]| < U32Limit
    ensures var pos := ChunkStart(cs, k);
            && pos + LenBytes + |cs[k]| <= |src|
            && ReadLe32(src[pos .. pos + LenBytes]) == |cs[k]|
            && src[pos + LenBytes .. pos + LenBytes + |cs[k]|] == cs[k]
  {
    var pos := ChunkStart(cs, k);
    var c := cs[k];
    FramedInSource(src, cs, k);
    var f := Framed(pos, c);
    FramedParts(pos, c);
    PieceWithin(src, f, Le32(|c|), pos, 0, pos);
    Le32RoundTrip(|c|);
    PieceWithin(src, f, c, pos, LenBytes, pos + LenBytes);
  }

  /** A source that holds a v0 container written for `cs`: the total T in
      the first four bytes (T fits the extent's srclen) and the layout of
      `cs` after it. */
  predicate HoldsLayout(src: seq<byte>, srclen: nat, cs: seq<seq<byte>>)
  {
    var t := LenBytes + |Layout(cs)|;
    && t < U32Limit && t <= srclen && t <= |src|
    && src[..LenBytes] == Le32(t)
    && src[LenBytes .. t] == Layout(cs)
  }

  /** Past the last chunk is the end of the layout. */
  lemma ChunkStartAtEnd(cs: seq<seq<byte>>)
    ensures ChunkStart(cs, |cs|) == LenBytes + |Layout(cs)|
  {
    assert cs[..|cs|] == cs;
  }

  /** Before the end of the chunks there is a prefix still to read. */
  lemma ChunkStartBeforeEnd(cs: seq<seq<byte>>, k: nat)
    requires k < |cs|
    ensures ChunkStart(cs, k) + LenBytes <= LenBytes + |Layout(cs)|
  {
    ChunkAt(cs, k);
  }

  /** The walk is at chunk k of a layout: at its prefix, with tot_in equal
      to the position, having handed the decoder chunks 0 .. k - 1. */
  predicate Tracks(cs: seq<seq<byte>>, k: nat, pos: nat, totIn: nat, rs: seq<ChunkRead>)
  {
    k <= |cs| && pos == ChunkStart(cs, k) && totIn == pos && Payloads(rs) == cs[..k]
  }

  /** While tot_in is short of a layout's total there is a chunk k: its
      prefix gives its length, its bytes follow, and it ends where the
      inner loop can land after its padding. */
  lemma LayoutRead(src: seq<byte>, srclen: nat, cs: seq<seq<byte>>, k: nat,
                   pos: nat, rs: seq<ChunkRead>)
    requires HoldsLayout(src, srclen, cs)
    requires Tracks(cs, k, pos, pos, rs) && pos < LenBytes + |Layout(cs)|
    ensures k < |cs| && pos + LenBytes + |cs[k]| <= |src|
    ensures ReadLe32(src[pos .. pos + LenBytes]) == |cs[k]|
    ensures src[pos + LenBytes .. pos + LenBytes + |cs[k]|] == cs[k]
    ensures EndsInLayout(|src|, LenBytes + |Layout(cs)|, |cs[k]|, pos + LenBytes, pos + LenBytes + |cs[k]|)
  {
    LayoutChunkEnds(cs, k, pos, |src|);
    ChunkReadsBack(src, cs, k);
  }

  /** The arithmetic half of LayoutRead: short of the total there is a
      chunk k, and it ends where the inner loop can land after its
      padding. */
  lemma LayoutChunkEnds(cs: seq<seq<byte>>, k: nat, pos: nat, srcEnd: nat)
    requires k <= |cs| && pos == ChunkStart(cs, k) && pos < LenBytes + |Layout(cs)| <= srcEnd
    ensures k < |cs| && pos + LenBytes + |cs[k]| <= LenBytes + |Layout(cs)|
    ensures EndsInLayout(srcEnd, LenBytes + |Layout(cs)|, |cs[k]|, pos + LenBytes, pos + LenBytes + |cs[k]|)
  {
    ChunkStartAtEnd(cs);
    assert k != |cs|;
    ChunkEnds(cs, k);
    LayoutChunkLands(cs, k, srcEnd);
  }

  /** Chunk k of a layout ends where the inner loop can land after its
      padding. */
  lemma LayoutChunkLands(cs: seq<seq<byte>>, k: nat, srcEnd: nat)
    requires k < |cs| && LenBytes + |Layout(cs)| <= srcEnd
    ensures var pos := ChunkStart(cs, k);
            EndsInLayout(srcEnd, LenBytes + |Layout(cs)|, |cs[k]|, pos + LenBytes, pos + LenBytes + |cs[k]|)
  {
    ChunkEnds(cs, k);
  }

  /** Landing after chunk k's padding is landing on chunk k + 1's prefix,
      or stopping after the last chunk. */
  lemma LayoutLands(cs: seq<seq<byte>>, k: nat, l: Landing, end: nat, totLen: nat)
    requires k < |cs| && end == ChunkStart(cs, k) + LenBytes + |cs[k]|
    requires totLen == LenBytes + |Layout(cs)|
    requires LandsAfterPad(l, end, totLen)
    ensures l.stopped ==> k + 1 == |cs|
    ensures !l.stopped ==> l.pos == ChunkStart(cs, k + 1) && l.totIn == l.pos
  {
    ChunkEnds(cs, k);
  }

  /** Handing the decoder chunk k moves the walk on to chunk k + 1. */
  lemma TracksNext(cs: seq<seq<byte>>, k: nat, pos: nat, rs: seq<ChunkRead>, r: ChunkRead, pos': nat)
    requires Tracks(cs, k, pos, pos, rs) && k < |cs| && r.payload == cs[k]
    requires pos' == ChunkStart(cs, k + 1)
    ensures Tracks(cs, k + 1, pos', pos', rs + [r])
  {
    PayloadsAppended(rs, r);
    assert cs[..k + 1] == cs[..k] + [cs[k]];
  }

  /** Once tot_in reaches the total, or the last chunk is handed on, every
      chunk has been handed on. */
  lemma TracksEnd(cs: seq<seq<byte>>, k: nat, pos: nat, rs: seq<ChunkRead>)
    requires Tracks(cs, k, pos, pos, rs) && (pos >= LenBytes + |Layout(cs)| || k == |cs|)
    ensures Payloads(rs) == cs
  {
    assert k == |cs| by {
      if k < |cs| {
        ChunkStartBeforeEnd(cs, k);
      }
    }
    assert cs[..k] == cs;
  }

  /** One turn of the outer loop: the chunk read and where the inner loop
      left the walk, or the walk ran out of source pages. */
  datatype Turn = OutOfSource | Handled(read: ChunkRead, next: Landing)

  /** The walk is at chunk k of a layout held by the source with tot_in
      short of the layout's total. */
  predicate AtLayoutChunk(src: seq<byte>, srclen: nat, cs: seq<seq<byte>>, k: nat,
                          totLen: nat, pos: nat, totIn: nat, rs: seq<ChunkRead>)
  {
    && HoldsLayout(src, srclen, cs)
    && totLen == LenBytes + |Layout(cs)|
    && Tracks(cs, k, pos, totIn, rs) && totIn < totLen
  }

  /** A turn at the prefix `pos` (tot_out at `totOut`) as the layout-level
      account has it: it runs out of source pages exactly when the closed-form
      landing does, and otherwise reads the chunk at `pos` into the window
      starting at `totOut` and lands where the closed form says. */
  predicate WalkedTurn(src: seq<byte>, totLen: nat, decoder: Decoder, pos: nat, totOut: nat, t: Turn)
    requires pos + LenBytes <= |src|
  {
    var end := pos + LenBytes + ReadLe32(src[pos .. pos + LenBytes]);
    var l := LandingAfter(|src|, totLen, end, end);
    && (t.OutOfSource? <==> l.OutOfPages?)
    && (t.Handled? ==> t.next == l && t.read.prefixAt == pos && ReadFrom(src, decoder, t.read)
                       && t.read.bufStart == totOut)
  }

  /** The body of the outer loop: read the length prefix at `pos`, step
      over the chunk's bytes, and decode them with the output capped at one
      page; tot_out moves on by the decoder's return stored in a size_t. */
  method ChunkTurn(src: seq<byte>, totLen: nat, decoder: Decoder,
                   pos: nat, left: nat, totIn: nat, totOut: nat) returns (t: Turn)
    requires |src| % PageSize == 0 && InPage(pos, left, |src|) && LenBytes <= left
    ensures pos + LenBytes <= |src|
    ensures t.Handled? ==> t.read.prefixAt == pos && ReadFrom(src, decoder, t.read)
    ensures t.Handled? ==> && t.next.Landed? && t.read.bufStart == totOut
                           && pos + LenBytes + |t.read.payload| <= t.next.pos <= |src|
    ensures t.Handled? && !t.next.stopped ==>
              InPage(t.next.pos, t.next.left, |src|) && LenBytes <= t.next.left
    ensures t.Handled? && t.next.stopped ==> t.next.totIn >= totLen
    // a chunk that ends as a layout's chunks do lands after its padding
    ensures var inLen := ReadLe32(src[pos .. pos + LenBytes]);
            EndsInLayout(|src|, totLen, inLen, pos + LenBytes, totIn + LenBytes + inLen) ==>
              t.Handled? && LandsAfterPad(t.next, pos + LenBytes + inLen, totLen)
    // the walk runs out of source pages exactly where the layout says
    ensures var inLen := ReadLe32(src[pos .. pos + LenBytes]);
            var l := LandingAfter(|src|, totLen, pos + LenBytes + inLen, totIn + LenBytes + inLen);
            && (t.OutOfSource? <==> l.OutOfPages?)
            && (t.Handled? ==> t.next == l)
    ensures totIn == pos ==> WalkedTurn(src, totLen, decoder, pos, totOut, t)
  {
    InPageFits(pos, left, |src|);
    var inLen := ReadLe32(src[pos .. pos + LenBytes]);
    var start := pos + LenBytes;
    var l := Advance(|src|, totLen, inLen, start, left - LenBytes, totIn + LenBytes + inLen);
    if l.OutOfPages? {
      return OutOfSource;
    }
    var payload := src[start .. start + inLen];
    var d := decoder(payload, PageSize);
    var totOut' := (totOut + SizeT(DecodedReturn(d))) % U64Limit;
    var read := ChunkRead(pos, payload, d, totOut, totOut');
    return Handled(read, l);
  }

  // ---------------------------------------------------------------------
  // The walk as a whole

  /** The turn whose prefix is at `pos` runs out of source pages: its bytes
      run past the last page, or they end with less than a prefix's room
      left, the total is not yet reached after skipping it, and that room
      reaches the end of the source. */
  predicate TurnRunsOut(src: seq<byte>, totLen: nat, pos: nat)
    requires pos + LenBytes <= |src|
  {
    var end := pos + LenBytes + ReadLe32(src[pos .. pos + LenBytes]);
    var room := RoomAfter(end);
    end > |src| || (room < LenBytes && end + room < totLen && end + room >= |src|)
  }

  /** The outcome of a walk: the return value, the chunks handed to the
      decoder, and the prefix position of the turn that ended it. */
  datatype Walk = Walk(ret: int, chunks: seq<ChunkRead>, at: nat)

  /** The v0 walk from the prefix at `pos` (with tot_in at `pos`) as a
      recursion over the chunks: stop once tot_in reaches tot_len, return -1
      for a turn that runs out of source pages, otherwise hand the chunk to
      the decoder and to buf2page and go on from where the inner loop lands,
      unless buf2page refused the chunk or the total was reached. */
  function WalkFrom(src: seq<byte>, totLen: nat, decoder: Decoder, stitch: Stitcher,
                    pos: nat, totOut: nat): (w: Walk)
    requires |src| % PageSize == 0 && PrefixFits(pos) && pos + LenBytes <= |src|
    decreases |src| - pos
    ensures w.ret == 0 || w.ret == -1
    ensures pos <= w.at && w.at + LenBytes <= |src|
    // -1 exactly when the turn that ended the walk ran out of source pages
    ensures w.ret == -1 <==> w.at < totLen && TurnRunsOut(src, totLen, w.at)
  {
    if pos >= totLen then Walk(0, [], pos)
    else
      var end := pos + LenBytes + ReadLe32(src[pos .. pos + LenBytes]);
      var l := LandingAfter(|src|, totLen, end, end);
      if l.OutOfPages? then Walk(-1, [], pos)
      else
        var payload := src[pos + LenBytes .. end];
        var d := decoder(payload, PageSize);
        var r := ChunkRead(pos, payload, d, totOut, (totOut + SizeT(DecodedReturn(d))) % U64Limit);
        if !stitch(d, r.bufStart, r.totOut) || l.stopped then Walk(0, [r], pos)
        else
          var w := WalkFrom(src, totLen, decoder, stitch, l.pos, r.totOut);
          Walk(w.ret, [r] + w.chunks, w.at)
  }

  /** One turn of the loop is one step of WalkFrom: running out of source
      pages ends it with -1, a refused chunk or a reached total ends it with
      that chunk, and otherwise it goes on from the landing. */
  lemma WalkStep(src: seq<byte>, totLen: nat, decoder: Decoder, stitch: Stitcher,
                 pos: nat, totOut: nat, t: Turn)
    requires |src| % PageSize == 0 && PrefixFits(pos) && pos + LenBytes <= |src| && pos < totLen
    requires WalkedTurn(src, totLen, decoder, pos, totOut, t)
    ensures t.OutOfSource? ==> WalkFrom(src, totLen, decoder, stitch, pos, totOut) == Walk(-1, [], pos)
    ensures t.Handled? && (!stitch(t.read.decoded, t.read.bufStart, t.read.totOut) || t.next.stopped) ==>
              WalkFrom(src, totLen, decoder, stitch, pos, totOut) == Walk(0, [t.read], pos)
    ensures t.Handled? && stitch(t.read.decoded, t.read.bufStart, t.read.totOut) && !t.next.stopped ==>
              && PrefixFits(t.next.pos) && t.next.pos + LenBytes <= |src| && pos < t.next.pos
              && var w := WalkFrom(src, totLen, decoder, stitch, t.next.pos, t.read.totOut);
                 WalkFrom(src, totLen, decoder, stitch, pos, totOut) == Walk(w.ret, [t.read] + w.chunks, w.at)
  {
    if t.Handled? {
      var r := t.read;
      var end := pos + LenBytes + |r.payload|;
      assert r == ChunkRead(pos, src[pos + LenBytes .. end], decoder(src[pos + LenBytes .. end], PageSize),
                            totOut, (totOut + SizeT(DecodedReturn(r.decoded))) % U64Limit);
    }
  }

  /** A chunk that ends as a layout's chunks do lands, in the closed form,
      after its padding. */
  lemma LandingAfterPad(srcEnd: nat, totLen: nat, end: nat)
    requires srcEnd % PageSize == 0
    requires EndsInLayout(srcEnd, totLen, end, 0, end)
    ensures LandsAfterPad(LandingAfter(srcEnd, totLen, end, end), end, totLen)
  {
    SwitchIsPad(end);
  }

  /** On a source that holds the layout of `cs`, the prefix at chunk k's
      position gives its length, its bytes follow, and the walk lands after
      its padding: on chunk k + 1's prefix, or stopped after the last chunk. */
  lemma LayoutLanding(src: seq<byte>, srclen: nat, cs: seq<seq<byte>>, k: nat, totLen: nat,
                      pos: nat, rs: seq<ChunkRead>)
    requires |src| % PageSize == 0
    requires AtLayoutChunk(src, srclen, cs, k, totLen, pos, pos, rs)
    ensures k < |cs| && pos + LenBytes + |cs[k]| <= |src|
    ensures ReadLe32(src[pos .. pos + LenBytes]) == |cs[k]|
    ensures src[pos + LenBytes .. pos + LenBytes + |cs[k]|] == cs[k]
    ensures var end := pos + LenBytes + |cs[k]|;
            var l := LandingAfter(|src|, totLen, end, end);
            && l.Landed?
            && (l.stopped ==> k + 1 == |cs|)
            && (!l.stopped ==> l.pos == ChunkStart(cs, k + 1))
  {
    LayoutRead(src, srclen, cs, k, pos, rs);
    var end := pos + LenBytes + |cs[k]|;
    LandingAfterPad(|src|, totLen, end);
    LayoutLands(cs, k, LandingAfter(|src|, totLen, end, end), end, totLen);
  }

  /** A turn of the walk at `pos` (short of the total, with a buf2page that
      never stops it) whose prefix gives the length of `chunk`, whose bytes
      follow, and that lands on `next` unless it is the `last`: the walk hands
      the decoder `chunk` and either ends there or goes on from `next`. */
  lemma WalkTurn(src: seq<byte>, totLen: nat, decoder: Decoder, stitch: Stitcher, pos: nat, totOut: nat,
                 chunk: seq<byte>, next: nat, last: bool)
    requires |src| % PageSize == 0 && PrefixFits(pos) && pos + LenBytes <= |src| && pos < totLen
    requires forall d, a, b :: stitch(d, a, b)
    requires pos + LenBytes + |chunk| <= |src| && ReadLe32(src[pos .. pos + LenBytes]) == |chunk|
    requires src[pos + LenBytes .. pos + LenBytes + |chunk|] == chunk
    requires var end := pos + LenBytes + |chunk|;
             var l := LandingAfter(|src|, totLen, end, end);
             && l.Landed? && (l.stopped ==> last) && (!l.stopped ==> l.pos == next)
    requires last ==> next >= totLen
    ensures var w := WalkFrom(src, totLen, decoder, stitch, pos, totOut);
            && w.chunks != [] && w.chunks[0].payload == chunk
            && (last ==> w.ret == 0 && w.chunks == [w.chunks[0]])
            && (!last ==>
                  && PrefixFits(next) && next + LenBytes <= |src| && pos < next
                  && var w' := WalkFrom(src, totLen, decoder, stitch, next, w.chunks[0].totOut);
                     w.ret == w'.ret && w.chunks == [w.chunks[0]] + w'.chunks)
  {
    var end := pos + LenBytes + |chunk|;
    var l := LandingAfter(|src|, totLen, end, end);
    var d := decoder(chunk, PageSize);
    var r := ChunkRead(pos, chunk, d, totOut, (totOut + SizeT(DecodedReturn(d))) % U64Limit);
    WalkStep(src, totLen, decoder, stitch, pos, totOut, Handled(r, l));
    if !l.stopped {
      var w' := WalkFrom(src, totLen, decoder, stitch, l.pos, r.totOut);
      if last {
        // landing on the total: the walk ends there
        assert w'.chunks == [] && [r] + w'.chunks == [r];
      }
    }
  }

  /** A chunk moved from the front of the rest to the end of the chunks
      before it leaves the whole unchanged. */
  lemma Regrouped(rs: seq<ChunkRead>, r: ChunkRead, more: seq<ChunkRead>)
    ensures rs + ([r] + more) == (rs + [r]) + more
  {
  }

  /** On a source that holds the layout of `cs`, with a buf2page that never
      stops it, the walk from chunk k's prefix returns 0 and hands the
      decoder chunks k onwards. */
  lemma {:induction false} WalkOnLayout(src: seq<byte>, srclen: nat, cs: seq<seq<byte>>, k: nat, totLen: nat,
                                        decoder: Decoder, stitch: Stitcher, pos: nat, totOut: nat,
                                        rs: seq<ChunkRead>)
    requires |src| % PageSize == 0 && PrefixFits(pos) && pos + LenBytes <= |src|
    requires HoldsLayout(src, srclen, cs) && totLen == LenBytes + |Layout(cs)|
    requires forall d, a, b :: stitch(d, a, b)
    requires Tracks(cs, k, pos, pos, rs)
    decreases |src| - pos
    ensures var w := WalkFrom(src, totLen, decoder, stitch, pos, totOut);
            w.ret == 0 && Payloads(rs + w.chunks) == cs
  {
    var w := WalkFrom(src, totLen, decoder, stitch, pos, totOut);
    if pos >= totLen {
      TracksEnd(cs, k, pos, rs);
      assert rs + w.chunks == rs;
    } else {
      LayoutLanding(src, srclen, cs, k, totLen, pos, rs);
      var n := ChunkStart(cs, k + 1);
      ChunkStartAtEnd(cs);
      assert cs[..|cs|] == cs;
      WalkTurn(src, totLen, decoder, stitch, pos, totOut, cs[k], n, k + 1 == |cs|);
      var r := w.chunks[0];
      TracksNext(cs, k, pos, rs, r, n);
      if k + 1 == |cs| {
        TracksEnd(cs, k + 1, n, rs + [r]);
      } else {
        var w' := WalkFrom(src, totLen, decoder, stitch, n, r.totOut);
        WalkOnLayout(src, srclen, cs, k + 1, totLen, decoder, stitch, n, r.totOut, rs + [r]);
        Regrouped(rs, r, w'.chunks);
      }
    }
  }

  /** The outer `while (tot_in < tot_len)` loop of the v0 walk: read a
      prefix, step over the chunk's bytes (Advance), decode them with the
      output capped at one page and hand the result to buf2page. It computes
      WalkFrom from the first prefix. */
  method WalkV0(src: seq<byte>, totLen: nat, decoder: Decoder, stitch: Stitcher)
    returns (ret: int, chunks: seq<ChunkRead>)
    requires |src| % PageSize == 0 && PageSize <= |src|
    ensures WalkedWell(src, decoder, stitch, chunks)
    ensures var w := WalkFrom(src, totLen, decoder, stitch, LenBytes, 0);
            ret == w.ret && chunks == w.chunks
  {
    ghost var whole := WalkFrom(src, totLen, decoder, stitch, LenBytes, 0);
    var pos: nat, left: nat, totIn: nat, totOut: nat := LenBytes, PageSize - LenBytes, LenBytes, 0;
    chunks := [];
    while totIn < totLen
      invariant InPage(pos, left, |src|) && LenBytes <= left
      invariant Between(src, decoder, stitch, chunks, pos, totOut)
      invariant totIn == pos && PrefixFits(pos) && pos + LenBytes <= |src|
      invariant var w := WalkFrom(src, totLen, decoder, stitch, pos, totOut);
                whole == Walk(w.ret, chunks + w.chunks, w.at)
      decreases |src| - pos
    {
      InPageFits(pos, left, |src|);
      var t := ChunkTurn(src, totLen, decoder, pos, left, totIn, totOut);
      WalkStep(src, totLen, decoder, stitch, pos, totOut, t);
      if t.OutOfSource? {
        assert chunks + [] == chunks;
        return -1, chunks;
      }
      var read, l := t.read, t.next;
      ReadAppended(src, decoder, stitch, chunks, read);
      ghost var before := chunks;
      chunks := chunks + [read];
      if !stitch(read.decoded, read.bufStart, read.totOut) || l.stopped {
        return 0, chunks;
      }
      ReadAccepted(src, decoder, stitch, before, read, l.pos);
      ghost var rest := WalkFrom(src, totLen, decoder, stitch, l.pos, read.totOut);
      Regrouped(before, read, rest.chunks);
      pos, left, totIn, totOut := l.pos, l.left, l.totIn, read.totOut;
    }
    assert chunks + [] == chunks;
    return 0, chunks;
  }

  /** The v0 part of lz4_decompress_biovec: `src` is the srclen bytes of the
      compressed extent in whole pages. The total in the first four bytes is
      clamped to srclen and the chunks are walked (WalkV0). The decoder's
      return is stored in a size_t, so its failure test (`out_len < 0`)
      never fires: a negative return is passed on as a huge length and
      tot_out wraps modulo 2^64. For a source that holds the layout of
      chunks `cs` (and a buf2page that never stops the walk) the decoder is
      handed exactly `cs` and the walk returns 0. */
  method DecompressV0(src: seq<byte>, srclen: nat, decoder: Decoder, stitch: Stitcher,
                      ghost cs: seq<seq<byte>>) returns (ret: int, chunks: seq<ChunkRead>)
    requires 0 < srclen && |src| == CountPages(srclen) * PageSize
    ensures ret == 0 || ret == -1
    ensures WalkedWell(src, decoder, stitch, chunks)
    ensures HoldsLayout(src, srclen, cs) && (forall d, a, b :: stitch(d, a, b)) ==>
              ret == 0 && Payloads(chunks) == cs
    // the walk is WalkFrom from the first prefix, up to the stored total
    // clamped to srclen
    ensures var w := WalkFrom(src, Min(srclen, ReadLe32(src[..LenBytes])), decoder, stitch, LenBytes, 0);
            ret == w.ret && chunks == w.chunks
  {
    WholePages(CountPages(srclen));
    var totLen := Min(srclen, ReadLe32(src[..LenBytes]));
    ret, chunks := WalkV0(src, totLen, decoder, stitch);
    if HoldsLayout(src, srclen, cs) && (forall d, a, b :: stitch(d, a, b)) {
      Le32RoundTrip(LenBytes + |Layout(cs)|);
      assert cs[..0] == [];
      WalkOnLayout(src, srclen, cs, 0, totLen, decoder, stitch, LenBytes, 0, []);
      assert [] + chunks == chunks;
    }
  }

  // ---------------------------------------------------------------------
  // A short source

  /** One page whose stored total is 4096 and whose first prefix claims a
      65535-byte chunk. */
  function ShortSource(): (src: seq<byte>)
    ensures |src| == PageSize
  {
    [0, 16, 0, 0, 255, 255, 0, 0] + seq(PageSize - 8, _ => 0)
  }

  /** The first chunk of ShortSource runs past its only page: the walk
      returns -1 having handed nothing to the decoder. */
  lemma ShortSourceRunsOut(decoder: Decoder, stitch: Stitcher)
    ensures var src := ShortSource();
            var w := WalkFrom(src, Min(PageSize, ReadLe32(src[..LenBytes])), decoder, stitch, LenBytes, 0);
            w.ret == -1 && w.chunks == []
  {
    var src := ShortSource();
    assert src[..LenBytes] == [0, 16, 0, 0];
    assert src[LenBytes .. 2 * LenBytes] == [255, 255, 0, 0];
    assert TurnRunsOut(src, PageSize, LenBytes);
  }
}

=== FILE: v0_encoder.dfy ===
/**
 * The v0 (streaming) encoder, lz4_compress_pages_v0 in
 * fs/btrfs/lz4_wrapper.c: each page of input is compressed on its own into
 * the working buffer and copied out behind its own length prefix, page by
 * destination page. The destination pages are modelled as one flat byte
 * stream `laid`, whose length is tot_out.
 */
module V0Encoder {
  import opened Bytes
  import opened Lz4
  import opened V0Layout
  import Errno

  /** Give up once more than this much input made the output bigger. */
  const GiveUpAfter: nat := 8192

  /** The encoder's running state: everything laid out so far (starting with
      the 4-byte total slot), the room left in the current destination page
      (pg_bytes_left), the destination pages obtained (nr_pages) and the
      input consumed (tot_in). */
  datatype EncState = EncState(laid: seq<byte>, pgLeft: nat, nrPages: nat, totIn: nat)

  /** The inner copy loop ends either with everything copied or with an
      early return (its value and nr_pages at that point). */
  datatype CopyOutcome = Copied(st: EncState) | CopyFailed(ret: int, nrPages: nat)

  /** The destination pages fill up exactly: what was laid out plus the room
      left is a whole number of pages. */
  predicate PagesFilled(st: EncState)
  {
    |st.laid| + st.pgLeft == st.nrPages * PageSize && st.pgLeft <= PageSize
  }

  /** The state at the top of the outer loop: a whole page is in use and a
      length prefix still fits in it. */
  predicate ReadyForChunk(st: EncState)
  {
    PagesFilled(st) && LenBytes <= st.pgLeft && 1 <= st.nrPages
  }

  /** The inner `while (out_len)` loop: copy `rest` into the destination,
      switching to a new page when this one is full or when the chunk has
      ended with fewer than four bytes left (which are zero-filled). `len` is
      the input length; allocation succeeds for the first `allocLimit`
      pages. */
  function CopyOut(st: EncState, rest: seq<byte>, len: nat, nrDest: nat, allocLimit: nat): (r: CopyOutcome)
    requires PagesFilled(st)
    decreases |rest|, if st.pgLeft == 0 then 1 else 0
    ensures r.Copied? && |rest| == 0 ==> r.st == st
    ensures r.Copied? ==> r.st.totIn == st.totIn
    // never more than nr_dest_pages pages
    ensures st.nrPages <= nrDest ==>
              (r.Copied? ==> r.st.nrPages <= nrDest) && (r.CopyFailed? ==> r.nrPages <= nrDest)
    ensures r.Copied? ==> st.nrPages <= r.st.nrPages
    // failing means the page bound was hit or the allocator gave out
    ensures r.CopyFailed? ==>
              (r.ret == -1 && r.nrPages == nrDest) || (r.ret == Errno.NoMem && r.nrPages >= allocLimit)
  {
    if |rest| == 0 then Copied(st)
    else
      var bytes := Min(st.pgLeft, |rest|);
      var laid := st.laid + rest[..bytes];
      var rest' := rest[bytes..];
      var left := st.pgLeft - bytes;
      if PageSwitch(|rest'|, left) then
        var laid' := laid + Zeros(left);
        if |rest'| == 0 && st.totIn >= len then
          // the input is used up: the copy ends without asking for a page
          Copied(EncState(laid', left, st.nrPages, st.totIn))
        else if st.nrPages == nrDest then
          CopyFailed(-1, st.nrPages)
        else if st.nrPages >= allocLimit then
          CopyFailed(Errno.NoMem, st.nrPages)
        else
          CopyOut(EncState(laid', PageSize, st.nrPages + 1, st.totIn), rest', len, nrDest, allocLimit)
      else
        CopyOut(EncState(laid, left, st.nrPages, st.totIn), rest', len, nrDest, allocLimit)
  }

  /** The copy loop lays the chunk out contiguously, followed by exactly
      the padding of the layout, and leaves a state ready for the next chunk
      unless the input is used up. */
  lemma {:induction false} CopyOutLaysChunk(st: EncState, rest: seq<byte>, len: nat, nrDest: nat, allocLimit: nat)
    requires PagesFilled(st) && |rest| > 0
    requires CopyOut(st, rest, len, nrDest, allocLimit).Copied?
    decreases |rest|, if st.pgLeft == 0 then 1 else 0
    ensures var st' := CopyOut(st, rest, len, nrDest, allocLimit).st;
            && st'.laid == st.laid + rest + Zeros(Pad(|st.laid| + |rest|))
            && (st'.totIn < len ==> ReadyForChunk(st'))
  {
    var bytes := Min(st.pgLeft, |rest|);
    var laid := st.laid + rest[..bytes];
    var rest' := rest[bytes..];
    var left := st.pgLeft - bytes;
    RoomFromPages(|laid|, left, st.nrPages);
    if |rest'| == 0 {
      // the chunk ends in this page, followed by its padding
      assert rest[..bytes] == rest;
      if left < LenBytes {
        assert Pad(|st.laid| + |rest|) == left;
      } else {
        assert Pad(|st.laid| + |rest|) == 0;
        assert Zeros(0) == [];
      }
    } else {
      // the page is full: the rest goes on the next page
      assert left == 0;
      var next := EncState(laid, PageSize, st.nrPages + 1, st.totIn);
      assert laid + Zeros(0) == laid;
      CopyOutLaysChunk(next, rest', len, nrDest, allocLimit);
      assert laid + rest' == st.laid + rest;
    }
  }

  /** The page count at which the next page request fails: the
      `nr_pages == nr_dest_pages` test comes before the allocation, so the
      bound wins a tie, and an nr_dest_pages of 0 never matches. */
  function PageLimit(nrDest: nat, allocLimit: nat): nat
  {
    if 1 <= nrDest <= allocLimit then nrDest else allocLimit
  }

  /** What the encoder returns when that request fails. */
  function PageLimitRet(nrDest: nat, allocLimit: nat): int
  {
    if 1 <= nrDest <= allocLimit then -1 else Errno.NoMem
  }

  /** The pages in use once `end` bytes are laid out: the pages they touch,
      and a fresh one after them unless the input is used up (a page with
      no room left for a prefix is replaced at once). */
  function PagesNeeded(end: nat, last: bool): nat
  {
    if last then CountPages(end) else end / PageSize + 1
  }

  /** `left` bytes short of `p` whole pages is inside page p, or at its end
      when nothing is left. */
  lemma InPageP(p: nat, left: nat)
    requires 1 <= p && left < PageSize
    ensures CountPages(p * PageSize - left) == p
    ensures (p * PageSize - left) / PageSize == if left == 0 then p else p - 1
  {
    var x := p * PageSize - left;
    if left == 0 {
      assert x == p * PageSize;
    } else {
      assert x == (p - 1) * PageSize + (PageSize - left);
    }
  }

  /** A state ready for a chunk uses the pages its bytes touch and one
      more. */
  lemma ReadyPages(st: EncState)
    requires ReadyForChunk(st)
    ensures st.nrPages == PagesNeeded(|st.laid|, false)
  {
    if st.pgLeft == PageSize {
      assert |st.laid| == (st.nrPages - 1) * PageSize;
    } else {
      InPageP(st.nrPages, st.pgLeft);
    }
  }

  /** The copy loop fails exactly when the pages the chunk needs pass the
      page limit, and then with the limit's return value and page count;
      otherwise it ends with exactly the pages needed. */
  lemma {:induction false} CopyOutPages(st: EncState, rest: seq<byte>, len: nat, nrDest: nat, allocLimit: nat)
    requires PagesFilled(st) && |rest| > 0
    requires 1 <= st.nrPages <= PageLimit(nrDest, allocLimit)
    decreases |rest|, if st.pgLeft == 0 then 1 else 0
    ensures var e := |st.laid| + |rest| + Pad(|st.laid| + |rest|);
            var need := PagesNeeded(e, st.totIn >= len);
            var r := CopyOut(st, rest, len, nrDest, allocLimit);
            && (r.CopyFailed? <==> need > PageLimit(nrDest, allocLimit))
            && (r.CopyFailed? ==> r.ret == PageLimitRet(nrDest, allocLimit)
                                  && r.nrPages == PageLimit(nrDest, allocLimit))
            && (r.Copied? ==> r.st.nrPages == need)
  {
    var p := st.nrPages;
    var e := |st.laid| + |rest| + Pad(|st.laid| + |rest|);
    var bytes := Min(st.pgLeft, |rest|);
    var laid := st.laid + rest[..bytes];
    var rest' := rest[bytes..];
    var left := st.pgLeft - bytes;
    if |rest'| == 0 {
      // the chunk ends in this page
      assert left < PageSize;
      RoomFromPages(|laid|, left, p);
      InPageP(p, left);
      if left < LenBytes {
        assert e == p * PageSize;
      } else {
        assert e == |laid| && e == p * PageSize - left;
      }
    } else {
      // the page is full and the rest needs the next one
      assert left == 0 && |laid| == p * PageSize;
      assert e > p * PageSize;
      InPageP(p, 0);
      if p < PageLimit(nrDest, allocLimit) {
        var next := EncState(laid, PageSize, p + 1, st.totIn);
        assert laid + Zeros(0) == laid;
        CopyOutPages(next, rest', len, nrDest, allocLimit);
      }
    }
  }

  // ---------------------------------------------------------------------
  // Input pages and their compressed chunks

  /** The input cut into pages from the front; only the last may be short. */
  function Pages(d: seq<byte>): (ps: seq<seq<byte>>)
    decreases |d|
  {
    if |d| == 0 then []
    else if |d| <= PageSize then [d]
    else [d[..PageSize]] + Pages(d[PageSize..])
  }

  /** Input that fills whole pages gains one page for each further page of
      input. */
  lemma {:induction false} PagesAppend(d: seq<byte>, p: seq<byte>)
    requires |d| % PageSize == 0
    requires 0 < |p| <= PageSize
    ensures Pages(d + p) == Pages(d) + [p]
    decreases |d|
  {
    if |d| == 0 {
      assert d + p == p;
    } else {
      assert (d + p)[..PageSize] == d[..PageSize];
      assert (d + p)[PageSize..] == d[PageSize..] + p;
      PagesAppend(d[PageSize..], p);
    }
  }

  /** Every page of input is one to PAGE_SIZE bytes, and concatenating the
      pages gives the input back. */
  lemma {:induction false} PagesCover(d: seq<byte>)
    ensures forall i :: 0 <= i < |Pages(d)| ==> 0 < |Pages(d)[i]| <= PageSize
    ensures Concat(Pages(d)) == d
    decreases |d|
  {
    if |d| > PageSize {
      PagesCover(d[PageSize..]);
      var ps := Pages(d);
      assert ps[1..] == Pages(d[PageSize..]);
      assert d[..PageSize] + d[PageSize..] == d;
    }
  }

  /** The pages joined back together. */
  function Concat(ps: seq<seq<byte>>): seq<byte>
  {
    if |ps| == 0 then [] else ps[0] + Concat(ps[1..])
  }

  /** Each page compressed on its own. */
  function CompressAll(ps: seq<seq<byte>>, compress: Compressor): (cs: seq<seq<byte>>)
    ensures |cs| == |ps|
    ensures forall i :: 0 <= i < |ps| ==> cs[i] == compress(ps[i])
  {
    seq(|ps|, i requires 0 <= i < |ps| => compress(ps[i]))
  }

  /** The chunks of the first `n` bytes of input. */
  function Chunks(data: seq<byte>, n: nat, compress: Compressor): seq<seq<byte>>
    requires n <= |data|
  {
    CompressAll(Pages(data[..n]), compress)
  }

  /** The 4-byte total slot, written only when the encoder succeeds. */
  function Slot(): seq<byte>
  {
    Zeros(LenBytes)
  }

  /** What the encoder has laid out once it has consumed tot_in bytes: the
      slot and the layout of one chunk per input page. */
  predicate LaidOut(st: EncState, data: seq<byte>, compress: Compressor)
  {
    && st.totIn % PageSize == 0
    && st.totIn < |data|
    && st.laid == Slot() + Layout(Chunks(data, st.totIn, compress))
  }

  /** The outcome of lz4_compress_pages_v0: its return value, *out_pages,
      *total_in, *total_out, and the container (the first *total_out bytes of
      the destination pages; empty unless the totals were reported). */
  datatype V0Compressed = V0Compressed(ret: int, outPages: nat, totalIn: nat, totalOut: nat,
                                       container: seq<byte>)

  /** The final checks after the loop: the container is kept only when it
      did not grow past the input; then its total is stamped into the slot. */
  function Finish(st: EncState): (r: V0Compressed)
    requires |st.laid| >= LenBytes
    ensures r.ret == 0 && r.outPages == st.nrPages
    ensures r.totalOut > 0 <==> |st.laid| <= st.totIn
    ensures r.totalOut > 0 ==>
              && r.totalIn == st.totIn && r.totalOut == |st.laid|
              && r.container == Le32(|st.laid|) + st.laid[LenBytes..]
    ensures r.totalOut == 0 ==> r.totalIn == 0 && r.container == []
  {
    if |st.laid| > st.totIn then V0Compressed(0, st.nrPages, 0, 0, [])
    else V0Compressed(0, st.nrPages, st.totIn, |st.laid|, Le32(|st.laid|) + st.laid[LenBytes..])
  }

  /** A successful outcome: the container is the stamped total followed by
      the layout of one chunk per consumed input page, and no bigger than
      the input it covers; input stops early only on a page boundary and
      only once the output passed max_out. */
  predicate Succeeded(r: V0Compressed, data: seq<byte>, compress: Compressor, maxOut: nat)
  {
    && r.ret == 0
    && 0 < r.totalIn <= |data|
    && LenBytes <= r.totalOut <= r.totalIn
    && (r.totalIn == |data| || (r.totalOut > maxOut && r.totalIn % PageSize == 0))
    && r.container == Le32(r.totalOut) + Layout(Chunks(data, r.totalIn, compress))
    && |r.container| == r.totalOut
  }

  /** Framing one more chunk behind a laid-out container lays out the
      longer chunk list. */
  lemma AppendChunk(prev: seq<seq<byte>>, chunk: seq<byte>, before: seq<byte>, after: seq<byte>)
    requires before == Slot() + Layout(prev)
    requires after == before + Framed(|before|, chunk)
    ensures after == Slot() + Layout(prev + [chunk])
  {
    var cs := prev + [chunk];
    assert cs[..|cs| - 1] == prev;
    var f := Framed(|before|, chunk);
    assert Layout(cs) == Layout(prev) + f;
    assert (Slot() + Layout(prev)) + f == Slot() + (Layout(prev) + f);
  }

  /** Consuming one more page of input adds its compressed chunk. */
  lemma ChunksStep(data: seq<byte>, n: nat, m: nat, compress: Compressor)
    requires n % PageSize == 0 && n < m <= |data| && m - n <= PageSize
    ensures Chunks(data, m, compress) == Chunks(data, n, compress) + [compress(data[n..m])]
  {
    assert data[..m] == data[..n] + data[n..m];
    PagesAppend(data[..n], data[n..m]);
    var ps := Pages(data[..n]);
    assert CompressAll(ps + [data[n..m]], compress) == CompressAll(ps, compress) + [compress(data[n..m])];
  }

  /** The number of input bytes the next turn consumes (in_len). */
  function NextLength(data: seq<byte>, st: EncState): nat
    requires st.totIn < |data|
  {
    Min(|data| - st.totIn, PageSize)
  }

  /** The bytes of the next input page compressed, once tot_in bytes are
      consumed. */
  function NextChunk(data: seq<byte>, st: EncState, compress: Compressor): seq<byte>
    requires st.totIn < |data|
  {
    compress(data[st.totIn .. st.totIn + NextLength(data, st)])
  }

  /** The state after the length prefix of the next chunk is written. */
  function Prefixed(data: seq<byte>, st: EncState, chunk: seq<byte>): (st1: EncState)
    requires ReadyForChunk(st) && st.totIn < |data|
    ensures PagesFilled(st1)
  {
    EncState(st.laid + Le32(|chunk|), st.pgLeft - LenBytes, st.nrPages, st.totIn + NextLength(data, st))
  }

  /** A turn that copied its chunk out behind its prefix, with the layout's
      padding, has laid out the chunks of one more input page. */
  lemma ChunkLaid(data: seq<byte>, st: EncState, compress: Compressor, st2: EncState)
    requires LaidOut(st, data, compress)
    requires st2.totIn == st.totIn + NextLength(data, st)
    requires var chunk := NextChunk(data, st, compress);
             st2.laid == (st.laid + Le32(|chunk|)) + chunk + Zeros(Pad(|st.laid| + LenBytes + |chunk|))
    ensures st2.laid == Slot() + Layout(Chunks(data, st2.totIn, compress))
    ensures st2.totIn < |data| ==> st2.totIn % PageSize == 0
  {
    var chunk := NextChunk(data, st, compress);
    assert st2.laid == st.laid + Framed(|st.laid|, chunk);
    var prev := Chunks(data, st.totIn, compress);
    ChunksStep(data, st.totIn, st2.totIn, compress);
    assert Chunks(data, st2.totIn, compress) == prev + [chunk];
    AppendChunk(prev, chunk, st.laid, st2.laid);
    if st2.totIn < |data| {
      NextPageBoundary(st.totIn);
    }
  }

  /** What lz4_compress_pages_v0 promises about any outcome: its return
      values, the allocator's share in an -ENOMEM, and the totals reported
      only with a well-formed container. */
  predicate Reported(r: V0Compressed, data: seq<byte>, compress: Compressor, maxOut: nat, allocLimit: nat)
  {
    && (r.ret == 0 || r.ret == -1 || r.ret == Errno.NoMem)
    && (r.ret == Errno.NoMem ==> r.outPages >= allocLimit)
    && (r.totalOut > 0 ==> Succeeded(r, data, compress, maxOut))
    && (r.totalOut == 0 ==> r.totalIn == 0 && r.container == [])
  }

  /** When the loop stops, a kept container is a success. */
  lemma FinishLaidOut(data: seq<byte>, st: EncState, compress: Compressor, maxOut: nat, allocLimit: nat)
    requires 0 < st.totIn <= |data|
    requires st.totIn == |data| || st.totIn % PageSize == 0
    requires st.laid == Slot() + Layout(Chunks(data, st.totIn, compress))
    requires st.totIn >= |data| || |st.laid| > maxOut
    ensures Reported(Finish(st), data, compress, maxOut, allocLimit)
  {
    assert st.laid[LenBytes..] == Layout(Chunks(data, st.totIn, compress));
  }

  // ---------------------------------------------------------------------
  // The outcome turn by turn, stated on the layout alone

  /** tot_in once the turn that starts with `n` bytes consumed is over. */
  function TurnEnd(data: seq<byte>, n: nat): (m: nat)
    requires n < |data|
    ensures n < m <= |data| && m - n <= PageSize
  {
    n + Min(|data| - n, PageSize)
  }

  /** tot_out once the first `n` bytes are laid out: the total slot and the
      layout of their chunks. */
  function LaidLength(data: seq<byte>, n: nat, compress: Compressor): nat
    requires n <= |data|
  {
    LenBytes + |Layout(Chunks(data, n, compress))|
  }

  /** nr_pages once the first `n` bytes are laid out. */
  function PagesInUse(data: seq<byte>, n: nat, compress: Compressor): nat
    requires n <= |data|
  {
    PagesNeeded(LaidLength(data, n, compress), n >= |data|)
  }

  /** How a turn of the outer loop ends the encoder, or that it does not. */
  datatype Why = CompressFailed | PagesExhausted | GaveUp | Stopped | KeepsGoing

  /** How the turn that starts with `n` bytes consumed ends, in the order
      the source tests: the compressor's output is empty, the layout after
      the turn needs more pages than the limit, the output is larger than
      more than 8 KiB of input, or the input is used up or the output passed
      max_out. */
  function TurnStop(data: seq<byte>, compress: Compressor, nrDest: nat, maxOut: nat, allocLimit: nat,
                    n: nat): Why
    requires n < |data|
  {
    var m := TurnEnd(data, n);
    if |compress(data[n..m])| == 0 then CompressFailed
    else if PagesInUse(data, m, compress) > PageLimit(nrDest, allocLimit) then PagesExhausted
    else if m > GiveUpAfter && m < LaidLength(data, m, compress) then GaveUp
    else if m >= |data| || LaidLength(data, m, compress) > maxOut then Stopped
    else KeepsGoing
  }

  /** The first turn from `n` on that ends the encoder. */
  function StopTurn(data: seq<byte>, compress: Compressor, nrDest: nat, maxOut: nat, allocLimit: nat,
                    n: nat): (k: nat)
    requires n < |data|
    ensures n <= k < |data|
    ensures TurnStop(data, compress, nrDest, maxOut, allocLimit, k) != KeepsGoing
    decreases |data| - n
  {
    if TurnStop(data, compress, nrDest, maxOut, allocLimit, n) != KeepsGoing then n
    else StopTurn(data, compress, nrDest, maxOut, allocLimit, TurnEnd(data, n))
  }

  /** What the encoder reports when the turn that starts at `k` ends it:
      -1 with the pages in use for an empty compressor output; the page
      limit's return value for a page it cannot get; 0 with no totals on
      giving up or for a container larger than its input; otherwise the
      stamped total followed by the layout of the chunks. */
  function StopOutcome(data: seq<byte>, compress: Compressor, nrDest: nat, maxOut: nat, allocLimit: nat,
                       k: nat): V0Compressed
    requires k < |data|
    requires TurnStop(data, compress, nrDest, maxOut, allocLimit, k) != KeepsGoing
  {
    var m := TurnEnd(data, k);
    var t := LaidLength(data, m, compress);
    match TurnStop(data, compress, nrDest, maxOut, allocLimit, k)
    case CompressFailed => V0Compressed(-1, PagesInUse(data, k, compress), 0, 0, [])
    case PagesExhausted =>
      V0Compressed(PageLimitRet(nrDest, allocLimit), PageLimit(nrDest, allocLimit), 0, 0, [])
    case GaveUp => V0Compressed(0, PagesInUse(data, m, compress), 0, 0, [])
    case Stopped =>
      if t > m then V0Compressed(0, PagesInUse(data, m, compress), 0, 0, [])
      else V0Compressed(0, PagesInUse(data, m, compress), m, t, Le32(t) + Layout(Chunks(data, m, compress)))
  }

  /** The copy of a turn's chunk in terms of the layout-level account: it
      fails exactly when the layout after the turn needs more pages than the
      limit, and otherwise lays out the first TurnEnd bytes on PagesInUse
      pages. */
  lemma TurnCopies(data: seq<byte>, st: EncState, compress: Compressor, nrDest: nat, allocLimit: nat)
    requires ReadyForChunk(st) && LaidOut(st, data, compress)
    requires st.nrPages <= PageLimit(nrDest, allocLimit)
    requires |NextChunk(data, st, compress)| > 0
    ensures var m := TurnEnd(data, st.totIn);
            var chunk := NextChunk(data, st, compress);
            var r := CopyOut(Prefixed(data, st, chunk), chunk, |data|, nrDest, allocLimit);
            && (r.CopyFailed? <==> PagesInUse(data, m, compress) > PageLimit(nrDest, allocLimit))
            && (r.CopyFailed? ==> r.ret == PageLimitRet(nrDest, allocLimit) && r.nrPages == PageLimit(nrDest, allocLimit))
            && (r.Copied? ==> r.st.totIn == m && |r.st.laid| == LaidLength(data, m, compress)
                              && r.st.nrPages == PagesInUse(data, m, compress))
  {
    var chunk := NextChunk(data, st, compress);
    var st1 := Prefixed(data, st, chunk);
    TurnLength(data, st, compress);
    CopyOutPages(st1, chunk, |data|, nrDest, allocLimit);
    if CopyOut(st1, chunk, |data|, nrDest, allocLimit).Copied? {
      CopyOutLaysChunk(st1, chunk, |data|, nrDest, allocLimit);
    }
  }

  /** The layout after a turn is the layout before it plus the framed
      chunk: prefix, bytes and padding. */
  lemma TurnLength(data: seq<byte>, st: EncState, compress: Compressor)
    requires LaidOut(st, data, compress)
    ensures var chunk := NextChunk(data, st, compress);
            var before := |st.laid| + LenBytes + |chunk|;
            LaidLength(data, TurnEnd(data, st.totIn), compress) == before + Pad(before)
  {
    var n := st.totIn;
    var m := TurnEnd(data, n);
    var chunk := NextChunk(data, st, compress);
    assert m == n + NextLength(data, st);
    assert chunk == compress(data[n..m]);
    var prev := Chunks(data, n, compress);
    ChunksStep(data, n, m, compress);
    var cs := prev + [chunk];
    assert Chunks(data, m, compress) == cs;
    assert cs[..|cs| - 1] == prev;
    assert |st.laid| == LenBytes + |Layout(prev)|;
    assert Layout(cs) == Layout(prev) + Framed(LenBytes + |Layout(prev)|, chunk);
  }

  /** A turn starts on the pages its layout so far needs. */
  lemma TurnStartPages(data: seq<byte>, st: EncState, compress: Compressor)
    requires ReadyForChunk(st) && LaidOut(st, data, compress)
    ensures st.nrPages == PagesInUse(data, st.totIn, compress)
  {
    ReadyPages(st);
  }

  /** One turn of the outer loop ends the encoder or leaves the next state. */
  datatype Turn = Done(r: V0Compressed) | Continue(st: EncState)

  /** One turn of the outer `while (tot_in < len)` loop: compress the next
      input page, copy it out behind its prefix, then apply the give-up and
      stop checks. */
  function EncodeTurn(data: seq<byte>, st: EncState, compress: Compressor,
                      nrDest: nat, maxOut: nat, allocLimit: nat): (t: Turn)
    requires ReadyForChunk(st) && LaidOut(st, data, compress)
    requires st.nrPages <= PageLimit(nrDest, allocLimit)
    ensures t.Done? ==> Reported(t.r, data, compress, maxOut, allocLimit)
    ensures t.Done? && st.nrPages <= nrDest ==> t.r.outPages <= nrDest
    ensures t.Continue? ==>
              && ReadyForChunk(t.st) && LaidOut(t.st, data, compress)
              && st.totIn < t.st.totIn
              && (st.nrPages <= nrDest ==> t.st.nrPages <= nrDest)
    // the turn ends the encoder exactly as the layout-level account says
    ensures t.Done? <==> TurnStop(data, compress, nrDest, maxOut, allocLimit, st.totIn) != KeepsGoing
    ensures t.Done? ==> t.r == StopOutcome(data, compress, nrDest, maxOut, allocLimit, st.totIn)
    ensures t.Continue? ==>
              t.st.totIn == TurnEnd(data, st.totIn) && t.st.nrPages <= PageLimit(nrDest, allocLimit)
  {
    var chunk := NextChunk(data, st, compress);
    TurnStartPages(data, st, compress);
    if |chunk| == 0 then
      Done(V0Compressed(-1, st.nrPages, 0, 0, []))
    else
      var st1 := Prefixed(data, st, chunk);
      TurnCopies(data, st, compress, nrDest, allocLimit);
      match CopyOut(st1, chunk, |data|, nrDest, allocLimit)
      case CopyFailed(ret, n) => Done(V0Compressed(ret, n, 0, 0, []))
      case Copied(st2) =>
        CopiedState(data, st, compress, nrDest, allocLimit);
        AfterCopy(data, st.totIn, st2, compress, nrDest, maxOut, allocLimit)
  }

  /** A copied chunk leaves the state AfterCopy starts from: one more input
      page consumed, its pages counted, and its chunk laid out. */
  lemma CopiedState(data: seq<byte>, st: EncState, compress: Compressor, nrDest: nat, allocLimit: nat)
    requires ReadyForChunk(st) && LaidOut(st, data, compress)
    requires st.nrPages <= PageLimit(nrDest, allocLimit)
    requires |NextChunk(data, st, compress)| > 0
    requires CopyOut(Prefixed(data, st, NextChunk(data, st, compress)), NextChunk(data, st, compress),
                     |data|, nrDest, allocLimit).Copied?
    ensures var n := st.totIn;
            var chunk := NextChunk(data, st, compress);
            var st2 := CopyOut(Prefixed(data, st, chunk), chunk, |data|, nrDest, allocLimit).st;
            && n < |data| && n % PageSize == 0
            && |compress(data[n..TurnEnd(data, n)])| > 0
            && PagesInUse(data, TurnEnd(data, n), compress) <= PageLimit(nrDest, allocLimit)
            && st2.totIn == TurnEnd(data, n) && st2.nrPages == PagesInUse(data, st2.totIn, compress)
            && st2.laid == Slot() + Layout(Chunks(data, st2.totIn, compress))
            && (st2.totIn < |data| ==> st2.totIn % PageSize == 0 && ReadyForChunk(st2))
  {
    var chunk := NextChunk(data, st, compress);
    var st1 := Prefixed(data, st, chunk);
    TurnCopies(data, st, compress, nrDest, allocLimit);
    CopyOutLaysChunk(st1, chunk, |data|, nrDest, allocLimit);
    ChunkLaid(data, st, compress, CopyOut(st1, chunk, |data|, nrDest, allocLimit).st);
  }

  /** The end of a turn whose chunk was copied into `st2`: give up, stop,
      or go on to the next page of input. */
  function AfterCopy(data: seq<byte>, n: nat, st2: EncState, compress: Compressor,
                     nrDest: nat, maxOut: nat, allocLimit: nat): (t: Turn)
    requires n < |data| && n % PageSize == 0
    requires |compress(data[n..TurnEnd(data, n)])| > 0
    requires PagesInUse(data, TurnEnd(data, n), compress) <= PageLimit(nrDest, allocLimit)
    requires st2.totIn == TurnEnd(data, n) && st2.nrPages == PagesInUse(data, st2.totIn, compress)
    requires st2.laid == Slot() + Layout(Chunks(data, st2.totIn, compress))
    requires st2.totIn < |data| ==> st2.totIn % PageSize == 0 && ReadyForChunk(st2)
    ensures t.Done? ==> Reported(t.r, data, compress, maxOut, allocLimit) && t.r.outPages == st2.nrPages
    ensures t.Continue? ==> t.st == st2 && ReadyForChunk(st2) && LaidOut(st2, data, compress)
    ensures t.Done? <==> TurnStop(data, compress, nrDest, maxOut, allocLimit, n) != KeepsGoing
    ensures t.Done? ==> t.r == StopOutcome(data, compress, nrDest, maxOut, allocLimit, n)
  {
    assert |st2.laid| == LaidLength(data, st2.totIn, compress);
    if st2.totIn > GiveUpAfter && st2.totIn < |st2.laid| then
      // past 8 KiB of input the output is still the larger: keep nothing
      Done(V0Compressed(0, st2.nrPages, 0, 0, []))
    else if st2.totIn >= |data| || |st2.laid| > maxOut then
      FinishLaidOut(data, st2, compress, maxOut, allocLimit);
      assert st2.laid[LenBytes..] == Layout(Chunks(data, st2.totIn, compress));
      Done(Finish(st2))
    else
      Continue(st2)
  }

  /** The outer `while (tot_in < len)` loop from a state that has laid out
      the chunks of the first tot_in bytes. */
  function EncodeLoop(data: seq<byte>, st: EncState, compress: Compressor,
                      nrDest: nat, maxOut: nat, allocLimit: nat): (r: V0Compressed)
    requires ReadyForChunk(st) && LaidOut(st, data, compress)
    requires st.nrPages <= PageLimit(nrDest, allocLimit)
    decreases |data| - st.totIn
    ensures Reported(r, data, compress, maxOut, allocLimit)
    ensures st.nrPages <= nrDest ==> r.outPages <= nrDest
    ensures r == StopOutcome(data, compress, nrDest, maxOut, allocLimit,
                             StopTurn(data, compress, nrDest, maxOut, allocLimit, st.totIn))
  {
    match EncodeTurn(data, st, compress, nrDest, maxOut, allocLimit)
    case Done(r) => r
    case Continue(st2) => EncodeLoop(data, st2, compress, nrDest, maxOut, allocLimit)
  }

  /** Which stopping reasons give which return: -1 for an empty compressor
      output or the nr_dest_pages bound, -ENOMEM when the allocator gives out
      first, 0 with nothing kept on giving up or for a container larger than
      its input, and a kept container otherwise. */
  lemma StopOutcomeCases(data: seq<byte>, compress: Compressor, nrDest: nat, maxOut: nat, allocLimit: nat,
                         k: nat)
    requires k < |data|
    requires TurnStop(data, compress, nrDest, maxOut, allocLimit, k) != KeepsGoing
    ensures var r := StopOutcome(data, compress, nrDest, maxOut, allocLimit, k);
            var why := TurnStop(data, compress, nrDest, maxOut, allocLimit, k);
            var m := TurnEnd(data, k);
            && (r.ret == -1 <==> why == CompressFailed || (why == PagesExhausted && 1 <= nrDest <= allocLimit))
            && (r.ret == Errno.NoMem <==> why == PagesExhausted && !(1 <= nrDest <= allocLimit))
            && (r.ret == 0 && r.totalOut == 0 <==>
                  why == GaveUp || (why == Stopped && LaidLength(data, m, compress) > m))
            && (r.totalOut > 0 <==> why == Stopped && LaidLength(data, m, compress) <= m)
            && (r.totalOut > 0 ==> r.totalIn == m && r.totalOut == LaidLength(data, m, compress))
  {
  }

  /** lz4_compress_pages_v0. The first destination page is obtained before
      any bound check, so the page bound holds for nr_dest_pages >= 1. The
      encoder stops at the first turn that ends it (StopTurn), for the
      reason TurnStop gives. */
  function CompressV0(data: seq<byte>, compress: Compressor, nrDest: nat, maxOut: nat, allocLimit: nat): (r: V0Compressed)
    ensures Reported(r, data, compress, maxOut, allocLimit)
    ensures 1 <= nrDest ==> r.outPages <= nrDest
    // no first page: -ENOMEM with nothing obtained
    ensures allocLimit == 0 ==> r == V0Compressed(Errno.NoMem, 0, 0, 0, [])
    // no input: the 4-byte slot alone is larger, so nothing is kept
    ensures 0 < allocLimit && |data| == 0 ==> r == V0Compressed(0, 1, 0, 0, [])
    ensures 0 < allocLimit && 0 < |data| ==>
              var k := StopTurn(data, compress, nrDest, maxOut, allocLimit, 0);
              var why := TurnStop(data, compress, nrDest, maxOut, allocLimit, k);
              var m := TurnEnd(data, k);
              && r == StopOutcome(data, compress, nrDest, maxOut, allocLimit, k)
              // -1: an empty compressor output, or the nr_dest_pages bound
              && (r.ret == -1 <==> why == CompressFailed || (why == PagesExhausted && 1 <= nrDest <= allocLimit))
              // -ENOMEM: the allocator gave out before the bound was reached
              && (r.ret == Errno.NoMem <==> why == PagesExhausted && !(1 <= nrDest <= allocLimit))
              // 0 with nothing kept: giving up, or a container larger than its input
              && (r.ret == 0 && r.totalOut == 0 <==>
                    why == GaveUp || (why == Stopped && LaidLength(data, m, compress) > m))
              // a kept container covers the input up to the stopping turn
              && (r.totalOut > 0 <==> why == Stopped && LaidLength(data, m, compress) <= m)
              && (r.totalOut > 0 ==> r.totalIn == m && r.totalOut == LaidLength(data, m, compress))
  {
    if allocLimit == 0 then
      V0Compressed(Errno.NoMem, 0, 0, 0, [])
    else
      var st0 := EncState(Slot(), PageSize - LenBytes, 1, 0);
      if |data| == 0 then Finish(st0)
      else
        assert data[..0] == [];
        StopOutcomeCases(data, compress, nrDest, maxOut, allocLimit,
                         StopTurn(data, compress, nrDest, maxOut, allocLimit, 0));
        EncodeLoop(data, st0, compress, nrDest, maxOut, allocLimit)
  }
}

=== FILE: v0_layout.dfy ===
/**
 * The byte layout of a v0 (streaming) container, stated independently of
 * the loops that write and read it (fs/btrfs/lz4_wrapper.c): a 4-byte total
 * slot, then per chunk a 4-byte little-endian length prefix and the chunk's
 * bytes, then zero padding to the end of the page whenever fewer than four
 * bytes of the page remain. Positions are flat: byte `pos` is byte
 * `pos % PageSize` of page `pos / PageSize`.
 */
module V0Layout {
  import opened Bytes

  /** Bytes left in the page after flat position `pos`; 0 on a page boundary. */
  function RoomAfter(pos: nat): nat
  {
    (PageSize - pos % PageSize) % PageSize
  }

  /** The room after a position is less than a page and reaches the next
      page boundary. */
  lemma RoomAfterBounds(pos: nat)
    ensures RoomAfter(pos) < PageSize
    ensures (pos + RoomAfter(pos)) % PageSize == 0
  {
  }

  /** When `left` bytes remain of the `n` pages that hold the first `pos`
      bytes (and not a whole fresh page), `left` is the room after `pos`. */
  lemma RoomFromPages(pos: nat, left: nat, n: nat)
    requires pos + left == n * PageSize
    requires left < PageSize
    ensures RoomAfter(pos) == left
  {
    if left == 0 {
      assert pos == n * PageSize;
      assert pos % PageSize == 0;
    } else {
      assert pos == (n - 1) * PageSize + (PageSize - left);
      assert pos % PageSize == PageSize - left;
    }
  }

  /** A length prefix written at `pos` lies inside one page. */
  predicate PrefixFits(pos: nat)
  {
    pos % PageSize <= PageSize - LenBytes
  }

  /** One page past a page boundary is a page boundary. */
  lemma NextPageBoundary(n: nat)
    requires n % PageSize == 0
    ensures (n + PageSize) % PageSize == 0
  {
    assert n + PageSize == (n / PageSize + 1) * PageSize;
  }

  /** Distinct page boundaries are at least a page apart. */
  lemma BoundaryGap(a: nat, b: nat)
    requires a % PageSize == 0 && b % PageSize == 0 && a < b
    ensures a + PageSize <= b
  {
    assert a == a / PageSize * PageSize && b == b / PageSize * PageSize;
    assert a / PageSize < b / PageSize;
  }

  /** The zero padding after a chunk that ends at `end`: the rest of the
      page when fewer than four bytes of it remain. */
  function Pad(end: nat): (p: nat)
    ensures p < LenBytes
  {
    if RoomAfter(end) < LenBytes then RoomAfter(end) else 0
  }

  /** After the padding the next length prefix fits in its page, and the
      padding only ever fills up the current page. */
  lemma PadLeavesRoom(end: nat)
    ensures PrefixFits(end + Pad(end))
    ensures Pad(end) > 0 ==> (end + Pad(end)) % PageSize == 0
  {
    RoomAfterBounds(end);
  }

  /** The page-advance test shared by the encoder's copy loop and the
      decoder's walk: the page is used up, or the chunk has ended with no
      room left for another length prefix. */
  predicate PageSwitch(remaining: nat, left: nat)
  {
    (remaining == 0 && left < LenBytes) || left == 0
  }

  /** `left` bytes of room remain after `pos` in a page that ends at
      `pos + left`. */
  lemma RoomToPageEnd(pos: nat, left: nat)
    requires (pos + left) % PageSize == 0
    requires left < PageSize
    ensures RoomAfter(pos) == left
  {
    RoomFromPages(pos, left, (pos + left) / PageSize);
  }

  /** At the end of a chunk the page is switched exactly when the layout
      pads it or it is full, and the bytes skipped are the padding. */
  lemma SwitchIsPad(end: nat)
    ensures PageSwitch(0, RoomAfter(end)) <==> Pad(end) > 0 || end % PageSize == 0
    ensures PageSwitch(0, RoomAfter(end)) ==> Pad(end) == RoomAfter(end)
    ensures !PageSwitch(0, RoomAfter(end)) ==> Pad(end) == 0
  {
  }

  /** One chunk `c` framed at flat position `pos`. */
  function Framed(pos: nat, c: seq<byte>): (b: seq<byte>)
    ensures |b| == LenBytes + |c| + Pad(pos + LenBytes + |c|)
  {
    Le32(|c|) + c + Zeros(Pad(pos + LenBytes + |c|))
  }

  /** A framed chunk starts with its length prefix and then its bytes. */
  lemma FramedParts(pos: nat, c: seq<byte>)
    ensures Framed(pos, c)[..LenBytes] == Le32(|c|)
    ensures Framed(pos, c)[LenBytes .. LenBytes + |c|] == c
  {
    var f := Framed(pos, c);
    assert f == Le32(|c|) + (c + Zeros(Pad(pos + LenBytes + |c|)));
  }

  /** The chunks of a v0 container as laid out after its total slot. */
  function Layout(cs: seq<seq<byte>>): (b: seq<byte>)
    decreases |cs|
  {
    if |cs| == 0 then []
    else
      var prev := Layout(cs[..|cs| - 1]);
      prev + Framed(LenBytes + |prev|, cs[|cs| - 1])
  }

  /** Where chunk k's prefix starts in the container. */
  function ChunkStart(cs: seq<seq<byte>>, k: nat): nat
    requires k <= |cs|
  {
    LenBytes + |Layout(cs[..k])|
  }

  /** The layout of a prefix of the chunks is a prefix of the layout. */
  lemma {:induction false} LayoutPrefix(cs: seq<seq<byte>>, k: nat)
    requires k <= |cs|
    ensures Layout(cs[..k]) <= Layout(cs)
    decreases |cs| - k
  {
    if k < |cs| {
      LayoutPrefix(cs, k + 1);
      var prev := Layout(cs[..k + 1][..k]);
      assert cs[..k + 1][..k] == cs[..k];
      assert Layout(cs[..k + 1]) == prev + Framed(LenBytes + |prev|, cs[k]);
    } else {
      assert cs[..k] == cs;
    }
  }

  /** Laying out one more chunk appends its framing. */
  lemma LayoutStep(cs: seq<seq<byte>>, k: nat)
    requires k < |cs|
    ensures Layout(cs[..k + 1]) == Layout(cs[..k]) + Framed(ChunkStart(cs, k), cs[k])
  {
    assert cs[..k + 1][..k] == cs[..k];
    assert cs[..k + 1][k] == cs[k];
  }

  /** A sequence with a known prefix has that prefix's slices. */
  lemma SliceOfPrefix(whole: seq<byte>, prev: seq<byte>, f: seq<byte>)
    requires prev + f <= whole
    ensures whole[|prev|..|prev| + |f|] == f
  {
    assert whole[..|prev| + |f|] == prev + f;
    assert whole[|prev|..|prev| + |f|] == (prev + f)[|prev|..];
  }

  /** Chunk k sits, framed, at its start position. */
  lemma ChunkAt(cs: seq<seq<byte>>, k: nat)
    requires k < |cs|
    ensures var p := ChunkStart(cs, k) - LenBytes;
            && p + |Framed(ChunkStart(cs, k), cs[k])| <= |Layout(cs)|
            && Layout(cs)[p..p + |Framed(ChunkStart(cs, k), cs[k])|] == Framed(ChunkStart(cs, k), cs[k])
            && ChunkStart(cs, k + 1) == ChunkStart(cs, k) + |Framed(ChunkStart(cs, k), cs[k])|
  {
    LayoutPrefix(cs, k + 1);
    LayoutStep(cs, k);
    SliceOfPrefix(Layout(cs), Layout(cs[..k]), Framed(ChunkStart(cs, k), cs[k]));
  }

  /** Every length prefix of a v0 layout has at least four bytes of room in
      its page: a prefix never straddles a page boundary. */
  lemma {:induction false} EveryPrefixFits(cs: seq<seq<byte>>, k: nat)
    requires k < |cs|
    ensures PrefixFits(ChunkStart(cs, k))
  {
    if k == 0 {
      assert cs[..0] == [];
    } else {
      LayoutStep(cs, k - 1);
      var s := ChunkStart(cs, k - 1);
      var end := s + LenBytes + |cs[k - 1]|;
      assert ChunkStart(cs, k) == end + Pad(end);
      PadLeavesRoom(end);
    }
  }
}

=== FILE: v0_round_trip.dfy ===
/**
 * A v0 container read back (fs/btrfs/lz4_wrapper.c): what
 * lz4_compress_pages_v0 stores is a container that the v0 walk of
 * lz4_decompress_biovec takes apart into exactly the chunks the encoder
 * compressed, so an LZ4 decoder that inverts the compressor on single pages
 * gives back the input the encoder consumed.
 */
module V0RoundTrip {
  import opened Bytes
  import opened Lz4
  import opened V0Layout
  import opened V0Encoder
  import opened V0Decoder
  import opened ContainerHeader
  import opened Dispatch
  import V1Codec

  /** The compressed pages as stored: the container, then whatever the rest
      of its last page holds. */
  predicate Stored(src: seq<byte>, r: V0Compressed)
  {
    && |src| == CountPages(r.totalOut) * PageSize
    && r.totalOut <= |src|
    && src[..r.totalOut] == r.container
  }

  /** A stored successful container holds the layout of the encoder's
      chunks, with its total as srclen. */
  lemma StoredHoldsLayout(r: V0Compressed, data: seq<byte>, compress: Compressor, maxOut: nat, src: seq<byte>)
    requires Succeeded(r, data, compress, maxOut) && |data| < U32Limit
    requires Stored(src, r)
    ensures HoldsLayout(src, r.totalOut, Chunks(data, r.totalIn, compress))
  {
    var cs := Chunks(data, r.totalIn, compress);
    var t := r.totalOut;
    assert src[..LenBytes] == r.container[..LenBytes] == Le32(t);
    assert src[LenBytes .. t] == r.container[LenBytes ..] == Layout(cs);
  }

  /** The bytes a decoder result stands for; a failed decode stands for
      none. */
  function BytesOf(d: Decoded): (b: seq<byte>)
    ensures d.Produced? ==> b == d.bytes
    ensures d.Corrupt? ==> b == []
  {
    if d.Produced? then d.bytes else []
  }

  /** The decoder's output over the chunks the walk handled, in order. */
  function Output(rs: seq<ChunkRead>): seq<byte>
  {
    if |rs| == 0 then [] else BytesOf(rs[0].decoded) + Output(rs[1..])
  }

  /** Chunks that decode to the given pages put out the pages joined. */
  lemma {:induction false} OutputOfPages(rs: seq<ChunkRead>, ps: seq<seq<byte>>)
    requires |rs| == |ps|
    requires forall i :: 0 <= i < |rs| ==> BytesOf(rs[i].decoded) == ps[i]
    ensures Output(rs) == Concat(ps)
  {
    if |rs| > 0 {
      assert BytesOf(rs[0].decoded) == ps[0];
      OutputOfPages(rs[1..], ps[1..]);
    }
  }

  /** When the walk handed the decoder the encoder's chunks, a decoder that
      inverts the compressor puts out the input the encoder consumed. */
  lemma DecodesToInput(data: seq<byte>, n: nat, compress: Compressor, decoder: Decoder,
                       rs: seq<ChunkRead>)
    requires n <= |data| && Inverts(decoder, compress)
    requires forall i :: 0 <= i < |rs| ==> rs[i].decoded == decoder(rs[i].payload, PageSize)
    requires Payloads(rs) == Chunks(data, n, compress)
    ensures Output(rs) == data[..n]
  {
    var ps := Pages(data[..n]);
    var cs := CompressAll(ps, compress);
    PagesCover(data[..n]);
    forall i | 0 <= i < |rs|
      ensures BytesOf(rs[i].decoded) == ps[i]
    {
      assert rs[i].payload == Payloads(rs)[i] == cs[i] == compress(ps[i]);
      assert 0 < |ps[i]| <= PageSize;
    }
    OutputOfPages(rs, ps);
  }

  /** Compress at most 128 KiB (the max_coompres_thresh of the lz4 op table) with
      lz4_compress_pages_v0, store the container in whole pages (the rest of
      the last page holding `junk`), and decompress it with
      lz4_decompress_biovec while buf2page never stops the walk: a kept
      container is read as v0 and decodes without error to the input bytes
      the encoder consumed. */
  method CompressThenDecompress(data: seq<byte>, compress: Compressor, decoder: Decoder, stitch: Stitcher,
                                expand: Expander, nrDest: nat, maxOut: nat, allocLimit: nat, junk: seq<byte>)
    returns (r: V0Compressed, ret: int, chunks: seq<ChunkRead>)
    requires |data| <= V0Limit && |junk| >= PageSize
    requires Inverts(decoder, compress)
    requires forall d, a, b :: stitch(d, a, b)
    ensures r == CompressV0(data, compress, nrDest, maxOut, allocLimit)
    ensures r.totalOut > 0 ==> ret == 0 && Output(chunks) == data[..r.totalIn]
  {
    r := CompressV0(data, compress, nrDest, maxOut, allocLimit);
    if r.totalOut == 0 {
      return r, 0, [];
    }
    var t := r.totalOut;
    var src := r.container + junk[..CountPages(t) * PageSize - t];
    assert src[..t] == r.container;
    ghost var cs := Chunks(data, r.totalIn, compress);
    StoredHoldsLayout(r, data, compress, maxOut, src);
    Le32RoundTrip(t);
    var o := DecompressBiovec(src, t, [], V1Codec.MapEnv(true, true), decoder, expand, stitch, cs);
    ret, chunks := o.ret, o.chunks;
    assert forall i :: 0 <= i < |chunks| ==> ReadFrom(src, decoder, chunks[i]);
    DecodesToInput(data, r.totalIn, compress, decoder, chunks);
  }
}

=== FILE: v1_codec.dfy ===
/**
 * The v1 (bulk) container of fs/btrfs/lz4_wrapper.c: an 8-byte header
 * `[tag(comp_len)][orig_len]` followed by the compressed bytes, produced by
 * one call of the compressor over the whole mapped input
 * (lz4_compress_pages_generic) and decoded by one call of the expander into
 * a mapped destination range (the v1 half of lz4_decompress_biovec).
 */
module V1Codec {
  import opened Bytes
  import opened Optional
  import opened Lz4
  import opened ContainerHeader
  import Errno

  /** What the kernel services do during one v1 compression:
      find_get_pages_contig finds every input page, vmap maps the input,
      alloc_page succeeds for the first `allocLimit` pages, vmap maps the
      output. */
  datatype CompressEnv = CompressEnv(inputFound: bool, inputMapped: bool,
                                     allocLimit: nat, outputMapped: bool)

  datatype Totals = Totals(totalIn: nat, totalOut: nat)

  /** The outcome of one v1 compression. `outPages` and `totals` are None
      when the call leaves *out_pages, *total_in and *total_out untouched.
      `container` is the meaningful prefix of the handed pages (empty when
      nothing is handed). `obtained` output pages were allocated, `handed` of
      them stored into pages[] and `released` freed before returning. */
  datatype V1Compressed = V1Compressed(
    ret: int,
    outPages: Option<nat>,
    totals: Option<Totals>,
    container: seq<byte>,
    obtained: nat,
    handed: nat,
    released: nat)

  /** The v1 header followed by the compressed bytes. */
  function V1Container(compLen: nat, origLen: nat, payload: seq<byte>): (c: seq<byte>)
    requires compLen < U32Limit
    ensures |c| == V1HeaderBytes + |payload|
    ensures c[V1HeaderBytes..] == payload
  {
    Le32(Tag(compLen)) + Le32(origLen) + payload
  }

  /** lz4_compress_pages_generic. `compress` is the LZ4 variant chosen by
      the caller; its output is written after the header into
      COUNT_PAGES(bound(len + 8)) preallocated pages, which it must fit. */
  function CompressV1(data: seq<byte>, nrDest: nat, env: CompressEnv,
                      compress: Compressor, bound: Bound): (r: V1Compressed)
    requires |compress(data)| + V1HeaderBytes <= bound(|data| + V1HeaderBytes)
    requires |compress(data)| < U32Limit
    // every output page obtained is either handed to the caller or freed
    ensures r.obtained == r.handed + r.released
    ensures r.obtained <= CountPages(bound(|data| + V1HeaderBytes))
    // success exactly when every service works and the container fits
    ensures r.ret == 0 <==>
              env.inputFound && env.inputMapped && env.outputMapped
              && env.allocLimit >= CountPages(bound(|data| + V1HeaderBytes))
              && CountPages(|compress(data)| + V1HeaderBytes) <= nrDest
    ensures r.ret == 0 ==>
              && r.totals == Some(Totals(|data|, |compress(data)| + V1HeaderBytes))
              && r.outPages == Some(CountPages(|compress(data)| + V1HeaderBytes))
              && r.handed == r.outPages.value <= nrDest
              && |r.container| == r.totals.value.totalOut
              && r.container[V1HeaderBytes..] == compress(data)
    // a failure hands nothing over, and releases everything it allocated
    ensures r.ret != 0 ==> r.handed == 0 && r.released == r.obtained && r.container == []
    ensures r.ret != 0 ==> r.outPages == None || r.outPages == Some(0)
    // the capacity failure still reports the totals it computed
    ensures r.ret == -1 && r.outPages == Some(0) ==>
              r.totals == Some(Totals(|data|, |compress(data)| + V1HeaderBytes))
  {
    var len := |data|;
    var nrOut := CountPages(bound(len + V1HeaderBytes));
    if !env.inputFound then
      V1Compressed(-1, None, None, [], 0, 0, 0)
    else if !env.inputMapped then
      V1Compressed(Errno.NoMem, None, None, [], 0, 0, 0)
    else if env.allocLimit < nrOut then
      // the page at index allocLimit is NULL: the release loop stops there
      V1Compressed(Errno.NoMem, Some(0), None, [], env.allocLimit, 0, env.allocLimit)
    else if !env.outputMapped then
      V1Compressed(Errno.NoMem, Some(0), None, [], nrOut, 0, nrOut)
    else
      var payload := compress(data);
      var totalOut := |payload| + V1HeaderBytes;
      var outPages := CountPages(totalOut);
      if outPages > nrDest then
        V1Compressed(-1, Some(0), Some(Totals(len, totalOut)), [], nrOut, 0, nrOut)
      else
        CountPagesMonotone(totalOut, bound(len + V1HeaderBytes));
        var kept := Min(outPages, nrDest);
        V1Compressed(0, Some(outPages), Some(Totals(len, totalOut)),
                     V1Container(|payload|, len, payload), nrOut, kept, nrOut - kept)
  }

  /** A container from a successful compression reads back, through either
      decoder's dispatch, as v1 with the compressed length and the original
      length the encoder stored. */
  lemma CompressedHeaderReadsBack(data: seq<byte>, nrDest: nat, env: CompressEnv,
                                  compress: Compressor, bound: Bound)
    requires |compress(data)| + V1HeaderBytes <= bound(|data| + V1HeaderBytes)
    requires |compress(data)| <= LengthMask
    requires |data| < U32Limit
    requires CompressV1(data, nrDest, env, compress, bound).ret == 0
    ensures var c := CompressV1(data, nrDest, env, compress, bound).container;
            && ClassifyBiovec(ReadLe32(c)) == V1
            && ClassifySingle(ReadLe32(c)) == V1
            && MaskedLength(ReadLe32(c)) == |compress(data)|
            && ReadLe32(c[LenBytes..]) == |data|
            && c[V1HeaderBytes..] == compress(data)
  {
    var payload := compress(data);
    var c := CompressV1(data, nrDest, env, compress, bound).container;
    assert c == Le32(Tag(|payload|)) + Le32(|data|) + payload;
    ReadLe32Prefix(Le32(Tag(|payload|)), Le32(|data|) + payload);
    assert c == Le32(Tag(|payload|)) + (Le32(|data|) + payload);
    Le32RoundTrip(Tag(|payload|));
    assert c[LenBytes..] == Le32(|data|) + payload;
    ReadLe32Prefix(Le32(|data|), payload);
    Le32RoundTrip(|data|);
    TagClassifiedV1(|payload|);
    TagRoundTrip(|payload|);
  }

  // ---------------------------------------------------------------------
  // Destination pages for the v1 decoder

  /** One destination page of the mapped output range: the caller's page
      bvec[index], or the index-th extra page the decoder allocated. */
  datatype Slot = Caller(index: nat) | Extra(index: nat)

  /** How many slots are caller pages. */
  function CallerCount(slots: seq<Slot>): (n: nat)
    ensures n <= |slots|
  {
    if |slots| == 0 then 0
    else (if slots[0].Caller? then 1 else 0) + CallerCount(slots[1..])
  }

  lemma {:induction false} CallerCountPrefix(s: Slot, rest: seq<Slot>, k: nat)
    requires 1 <= k <= |rest| + 1
    ensures CallerCount(([s] + rest)[..k]) == (if s.Caller? then 1 else 0) + CallerCount(rest[..k - 1])
  {
    assert ([s] + rest)[..k][1..] == rest[..k - 1];
  }

  /** The assembly loop of lz4_decompress_biovec from destination index `i`
      on, with `j` caller pages and `e` extra pages already used. Destination
      page i is the next caller page when that page's offset in the extent
      (page_offset(bv_page) - disk_start, given in `offsets`) is i pages;
      otherwise a fresh extra page. */
  function AssembleFrom(offsets: seq<int>, count: nat, i: nat, j: nat, e: nat): (slots: seq<Slot>)
    requires i <= count && j <= |offsets|
    decreases count - i
    ensures |slots| == count - i
  {
    if i == count then []
    else if j < |offsets| && offsets[j] == i * PageSize then
      [Caller(j)] + AssembleFrom(offsets, count, i + 1, j + 1, e)
    else
      [Extra(e)] + AssembleFrom(offsets, count, i + 1, j, e + 1)
  }

  /** The rule the assembly loop follows at slot k of a run started at
      destination index i with j caller pages and e extra pages used: a
      caller page exactly when the next unused caller page sits at this
      destination index, caller pages taken in order, extra pages numbered
      in order. */
  predicate SlotRule(offsets: seq<int>, slots: seq<Slot>, i: nat, j: nat, e: nat, k: nat)
    requires k < |slots|
  {
    var used := j + CallerCount(slots[..k]);
    && (slots[k].Caller? <==> (used < |offsets| && offsets[used] == (i + k) * PageSize))
    && (slots[k].Caller? ==> slots[k].index == used)
    && (slots[k].Extra? ==> slots[k].index == e + (k - CallerCount(slots[..k])))
  }

  /** The assembly loop follows SlotRule at every slot and never uses a
      caller page beyond vcnt. */
  lemma {:induction false} AssembleFromShape(offsets: seq<int>, count: nat, i: nat, j: nat, e: nat)
    requires i <= count && j <= |offsets|
    decreases count - i
    ensures var slots := AssembleFrom(offsets, count, i, j, e);
      && j + CallerCount(slots) <= |offsets|
      && forall k :: 0 <= k < |slots| ==> SlotRule(offsets, slots, i, j, e, k)
  {
    var slots := AssembleFrom(offsets, count, i, j, e);
    if i < count {
      var s := slots[0];
      var j', e' := if s.Caller? then j + 1 else j, if s.Caller? then e else e + 1;
      var rest := AssembleFrom(offsets, count, i + 1, j', e');
      assert slots == [s] + rest;
      assert slots[1..] == rest;
      AssembleFromShape(offsets, count, i + 1, j', e');
      forall k | 0 <= k < |slots|
        ensures SlotRule(offsets, slots, i, j, e, k)
      {
        if k == 0 {
          assert slots[..0] == [];
        } else {
          CallerCountPrefix(s, rest, k);
          assert slots[k] == rest[k - 1];
          assert SlotRule(offsets, rest, i + 1, j', e', k - 1);
        }
      }
    }
  }

  /** The destination pages of a v1 extent of `origLen` bytes. */
  function AssembleDest(offsets: seq<int>, origLen: nat): (slots: seq<Slot>)
    ensures |slots| == CountPages(origLen)
  {
    AssembleFrom(offsets, CountPages(origLen), 0, 0, 0)
  }

  /** How many slots are extra pages. */
  function ExtraCount(slots: seq<Slot>): (n: nat)
  {
    if |slots| == 0 then 0
    else (if slots[0].Extra? then 1 else 0) + ExtraCount(slots[1..])
  }

  /** Every slot is one kind or the other. */
  lemma {:induction false} CallersPlusExtras(slots: seq<Slot>)
    ensures CallerCount(slots) + ExtraCount(slots) == |slots|
  {
    if |slots| > 0 {
      CallersPlusExtras(slots[1..]);
    }
  }

  /** The destination range of a v1 decode: COUNT_PAGES(orig_len) pages,
      matched caller pages plus extra pages; destination page k is a caller
      page exactly when the next unused caller page lies k pages into the
      extent; caller pages are taken in order and extra pages numbered in
      order. */
  lemma AssembleDestAccounting(offsets: seq<int>, origLen: nat)
    ensures var slots := AssembleDest(offsets, origLen);
            && CallerCount(slots) <= |offsets|
            && CallerCount(slots) + ExtraCount(slots) == CountPages(origLen)
            && forall k :: 0 <= k < |slots| ==> SlotRule(offsets, slots, 0, 0, 0, k)
  {
    AssembleFromShape(offsets, CountPages(origLen), 0, 0, 0);
    CallersPlusExtras(AssembleDest(offsets, origLen));
  }

  /** `a` page-aligned and at least `i` pages, but not exactly `i` pages:
      then it is at least `i + 1` pages. */
  lemma NextAlignedPage(a: int, i: nat)
    requires a % PageSize == 0 && a >= i * PageSize && a != i * PageSize
    ensures a >= (i + 1) * PageSize
  {
    var d := a / PageSize - i;
    assert d * PageSize == a - i * PageSize;
    assert d * PageSize > 0;
    assert d >= 1;
    assert d * PageSize >= PageSize;
  }

  /** When the caller's pages sit at strictly increasing page-aligned offsets
      inside the extent, every one of them is used as a destination page and
      the decoder allocates extra pages only for the holes. */
  lemma {:induction false} EveryCallerPageUsed(offsets: seq<int>, count: nat, i: nat, j: nat, e: nat)
    requires i <= count && j <= |offsets|
    requires forall k :: j <= k < |offsets| ==> offsets[k] % PageSize == 0
    requires forall k :: j <= k < |offsets| ==> i * PageSize <= offsets[k] < count * PageSize
    requires forall k, l :: j <= k < l < |offsets| ==> offsets[k] < offsets[l]
    ensures j + CallerCount(AssembleFrom(offsets, count, i, j, e)) == |offsets|
    decreases count - i
  {
    var slots := AssembleFrom(offsets, count, i, j, e);
    assert j < |offsets| ==> offsets[j] < count * PageSize;
    if i == count {
    } else if j < |offsets| && offsets[j] == i * PageSize {
      var rest := AssembleFrom(offsets, count, i + 1, j + 1, e);
      forall k | j + 1 <= k < |offsets|
        ensures (i + 1) * PageSize <= offsets[k]
      {
        NextAlignedPage(offsets[k], i);
      }
      EveryCallerPageUsed(offsets, count, i + 1, j + 1, e);
      assert slots == [Caller(j)] + rest;
      assert slots[1..] == rest;
    } else {
      var rest := AssembleFrom(offsets, count, i + 1, j, e + 1);
      forall k | j <= k < |offsets|
        ensures (i + 1) * PageSize <= offsets[k]
      {
        if k > j {
          assert offsets[j] < offsets[k];
        }
        NextAlignedPage(offsets[k], i);
      }
      EveryCallerPageUsed(offsets, count, i + 1, j, e + 1);
      assert slots == [Extra(e)] + rest;
      assert slots[1..] == rest;
    }
  }

  // ---------------------------------------------------------------------
  // The page pointers of the v1 decoder in workspace->buf

  /** Bytes in a page pointer on a 64-bit build. */
  const PointerBytes: nat := 8

  /** out_vmap is workspace->buf and extra_pages starts PAGE_CACHE_SIZE / 2
      bytes into the same buffer: pointer position 256 of out_vmap. */
  const ExtraPagesAt: nat := PageSize / 2 / PointerBytes

  /** The pointer at position `p` of workspace->buf once the assembly loop
      has run over `slots`. Step i stores out_vmap[i] at position i and then,
      for an extra page e, extra_pages[e] at position ExtraPagesAt + e; the
      later store wins. None when the loop stored nothing there. */
  function Stored(slots: seq<Slot>, p: nat): Option<Slot>
  {
    if |slots| == 0 then None
    else
      var i := |slots| - 1;
      var s := slots[i];
      if s.Extra? && ExtraPagesAt + s.index == p then Some(s)
      else if i == p then Some(s)
      else Stored(slots[..i], p)
  }

  /** The pages the free loop hands to __free_page: extra_pages[0] up to
      extra_pages[extra_pages_used - 1], read back from the shared buffer. */
  function FreedPages(slots: seq<Slot>): (freed: seq<Option<Slot>>)
    ensures |freed| == ExtraCount(slots)
  {
    seq(ExtraCount(slots), (k: nat) => Stored(slots, ExtraPagesAt + k))
  }

  /** Extra pages are numbered in the order the assembly loop meets them. */
  predicate ExtrasInOrder(slots: seq<Slot>)
  {
    forall k :: 0 <= k < |slots| && slots[k].Extra? ==> slots[k].index == ExtraCount(slots[..k])
  }

  lemma {:induction false} ExtraCountSnoc(slots: seq<Slot>, s: Slot)
    ensures ExtraCount(slots + [s]) == ExtraCount(slots) + (if s.Extra? then 1 else 0)
  {
    if |slots| > 0 {
      assert (slots + [s])[1..] == slots[1..] + [s];
      ExtraCountSnoc(slots[1..], s);
    }
  }

  /** The assembled destination numbers its extra pages in order. */
  lemma AssembleDestInOrder(offsets: seq<int>, origLen: nat)
    ensures ExtrasInOrder(AssembleDest(offsets, origLen))
  {
    var slots := AssembleDest(offsets, origLen);
    AssembleDestAccounting(offsets, origLen);
    forall k | 0 <= k < |slots| && slots[k].Extra?
      ensures slots[k].index == ExtraCount(slots[..k])
    {
      assert SlotRule(offsets, slots, 0, 0, 0, k);
      CallersPlusExtras(slots[..k]);
    }
  }

  /** While out_vmap stays below extra_pages, extra page k is the pointer
      left at extra_pages[k]. */
  lemma {:induction false} StoredExtra(slots: seq<Slot>, k: nat)
    requires ExtrasInOrder(slots) && |slots| <= ExtraPagesAt && k < ExtraCount(slots)
    ensures Stored(slots, ExtraPagesAt + k) == Some(Extra(k))
  {
    var i := |slots| - 1;
    var pre := slots[..i];
    assert slots == pre + [slots[i]];
    ExtraCountSnoc(pre, slots[i]);
    assert slots[i].Extra? ==> slots[i].index == ExtraCount(pre);
    if !(slots[i].Extra? && slots[i].index == k) {
      forall j | 0 <= j < |pre| && pre[j].Extra?
        ensures pre[j].index == ExtraCount(pre[..j])
      {
        assert pre[..j] == slots[..j];
      }
      StoredExtra(pre, k);
    }
  }

  /** With at most 256 destination pages the free loop frees every extra
      page exactly once, in the order they were allocated. */
  lemma ExtrasFreedOnce(offsets: seq<int>, origLen: nat)
    requires CountPages(origLen) <= ExtraPagesAt
    ensures var freed := FreedPages(AssembleDest(offsets, origLen));
            forall k :: 0 <= k < |freed| ==> freed[k] == Some(Extra(k))
  {
    var slots := AssembleDest(offsets, origLen);
    AssembleDestInOrder(offsets, origLen);
    forall k | 0 <= k < ExtraCount(slots)
      ensures Stored(slots, ExtraPagesAt + k) == Some(Extra(k))
    {
      StoredExtra(slots, k);
    }
  }

  /** Extra pages e, e + 1, ..., e + n - 1. */
  function ExtrasFrom(e: nat, n: nat): (slots: seq<Slot>)
    ensures |slots| == n
  {
    seq(n, (k: nat) => Extra(e + k))
  }

  /** The assembly loop with no caller pages allocates every slot. */
  lemma {:induction false} AssembleNoCallers(count: nat, i: nat, e: nat)
    requires i <= count
    decreases count - i
    ensures AssembleFrom([], count, i, 0, e) == ExtrasFrom(e, count - i)
  {
    if i < count {
      AssembleNoCallers(count, i + 1, e + 1);
    }
  }

  /** A run of n extra pages counts n. */
  lemma {:induction false} ExtraCountAll(n: nat, e: nat)
    ensures ExtraCount(ExtrasFrom(e, n)) == n
  {
    if n > 0 {
      assert ExtrasFrom(e, n)[1..] == ExtrasFrom(e + 1, n - 1);
      ExtraCountAll(n - 1, e + 1);
    }
  }

  /** The pointer at position p >= 256 after n extra pages: out_vmap[p] when
      the loop reached slot p, since that store comes later, else
      extra_pages[p - 256]. */
  lemma {:induction false} StoredAllExtras(n: nat, p: nat)
    requires ExtraPagesAt <= p
    ensures Stored(ExtrasFrom(0, n), p)
            == if p < n then Some(Extra(p))
               else if p - ExtraPagesAt < n then Some(Extra(p - ExtraPagesAt))
               else None
  {
    if n > 0 {
      assert ExtrasFrom(0, n)[..n - 1] == ExtrasFrom(0, n - 1);
      StoredAllExtras(n - 1, p);
    }
  }

  /** With between 257 and 512 destination pages and no caller pages, the
      out_vmap stores overwrite extra_pages: the first extra page is never
      freed and extra page 256 is freed twice. */
  lemma AliasedFreeMissesFirstPage(origLen: nat)
    requires ExtraPagesAt < CountPages(origLen) <= 2 * ExtraPagesAt
    ensures var freed := FreedPages(AssembleDest([], origLen));
            && |freed| == CountPages(origLen)
            && Some(Extra(0)) !in freed
            && freed[0] == freed[ExtraPagesAt] == Some(Extra(ExtraPagesAt))
  {
    var n := CountPages(origLen);
    var slots := AssembleDest([], origLen);
    AssembleNoCallers(n, 0, 0);
    ExtraCountAll(n, 0);
    var freed := FreedPages(slots);
    forall k | 0 <= k < |freed|
      ensures freed[k] != Some(Extra(0))
    {
      assert freed[k] == Stored(slots, ExtraPagesAt + k);
      StoredAllExtras(n, ExtraPagesAt + k);
    }
    StoredAllExtras(n, ExtraPagesAt);
    assert freed[0] == Stored(slots, ExtraPagesAt);
    StoredAllExtras(n, ExtraPagesAt + ExtraPagesAt);
    assert freed[ExtraPagesAt] == Stored(slots, ExtraPagesAt + ExtraPagesAt);
  }

  /** Whether vmap maps the source pages and the destination pages. */
  datatype MapEnv = MapEnv(inputMapped: bool, outputMapped: bool)

  /** The outcome of the v1 half of lz4_decompress_biovec: the return value,
      the destination pages it assembled, the pages handed to __free_page,
      and what the expander produced (None when it was not called). */
  datatype V1Decompressed = V1Decompressed(ret: int, slots: seq<Slot>, freed: seq<Option<Slot>>,
                                           output: Option<Expanded>)

  /** The v1 half of lz4_decompress_biovec, entered once the leading word
      reads as a v1 tag. `src` is the source pages laid end to end. The
      expander's failure is not reported: the `out_len < 0` test is on an
      unsigned value and never fires. */
  function DecompressV1(src: seq<byte>, offsets: seq<int>, env: MapEnv, expand: Expander): (r: V1Decompressed)
    requires |src| >= V1HeaderBytes
    ensures r.ret == 0 || r.ret == Errno.NoMem
    ensures r.ret == 0 <==> env.inputMapped && env.outputMapped
    ensures env.inputMapped ==> r.slots == AssembleDest(offsets, ReadLe32(src[LenBytes..]))
    // on success the expander decodes the payload after the header into
    // exactly orig_len bytes of destination, and the free loop runs once per
    // extra page over what the shared buffer holds
    ensures r.ret == 0 ==>
              && r.output == Some(expand(src[V1HeaderBytes..], ReadLe32(src[LenBytes..])))
              && |r.freed| == |r.slots| - CallerCount(r.slots)
    // every extra page is freed once, in order, while out_vmap stays below
    // extra_pages in the shared buffer
    ensures r.ret == 0 && |r.slots| <= ExtraPagesAt ==>
              forall k :: 0 <= k < |r.freed| ==> r.freed[k] == Some(Extra(k))
    ensures r.ret != 0 ==> r.output == None && r.freed == []
  {
    var origLen := ReadLe32(src[LenBytes..]);
    if !env.inputMapped then
      V1Decompressed(Errno.NoMem, [], [], None)
    else
      var slots := AssembleDest(offsets, origLen);
      if !env.outputMapped then
        // the extra pages are not freed on this path
        V1Decompressed(Errno.NoMem, slots, [], None)
      else
        var out := expand(src[V1HeaderBytes..], origLen);
        var freed := FreedPages(slots);
        CallersPlusExtras(slots);
        assert |slots| <= ExtraPagesAt ==> forall k :: 0 <= k < |freed| ==> freed[k] == Some(Extra(k)) by {
          if |slots| <= ExtraPagesAt {
            ExtrasFreedOnce(offsets, origLen);
          }
        }
        V1Decompressed(0, slots, freed, Some(out))
  }
}

=== FILE: workspace.dfy ===
/**
 * The per-call scratch memory of the LZ4 wrapper (lz4_alloc_workspace_generic
 * and lz4_free_workspace in fs/btrfs/lz4_wrapper.c): an LZ4 context sized
 * for the chosen variant and two work buffers of two pages each. Whether
 * each allocation succeeds is an input.
 */
module Workspace {
  import opened Bytes
  import Errno

  /** LZ4_MAX_WORKBUF: 2 * LZ4_CHUNK_SIZE. */
  const MaxWorkBuf: nat := 2 * PageSize

  /** Which of kzalloc (the record) and the three vmalloc calls succeed. */
  datatype AllocEnv = AllocEnv(record: bool, mem: bool, buf: bool, cbuf: bool)

  /** A workspace with the sizes of its three buffers, or -ENOMEM with the
      number of buffers obtained and the number vfree'd again, and whether
      the record was kfree'd. */
  datatype Allocated =
    | Ready(memBytes: nat, bufBytes: nat, cbufBytes: nat)
    | NoWorkspace(ret: int, obtained: nat, freed: nat, recordFreed: bool)

  /** The buffers of a failed attempt that were obtained. */
  function Obtained(env: AllocEnv): nat
  {
    (if env.mem then 1 else 0) + (if env.buf then 1 else 0) + (if env.cbuf then 1 else 0)
  }

  /** lz4_alloc_workspace_generic(hi) with the context sizes of the HC and
      64k variants as parameters: all three buffers or none are kept, and a
      failure frees whatever it obtained. */
  function AllocWorkspace(hi: bool, env: AllocEnv, contextHC: nat, context64k: nat): (a: Allocated)
    ensures a.Ready? <==> env.record && env.mem && env.buf && env.cbuf
    ensures a.Ready? ==>
              && a.memBytes == (if hi then contextHC else context64k)
              && a.bufBytes == MaxWorkBuf && a.cbufBytes == MaxWorkBuf
    ensures a.NoWorkspace? ==> a.ret == Errno.NoMem && a.freed == a.obtained
    ensures a.NoWorkspace? && env.record ==> a.recordFreed && a.obtained == Obtained(env) < 3
    ensures a.NoWorkspace? && !env.record ==> a.obtained == 0
  {
    if !env.record then NoWorkspace(Errno.NoMem, 0, 0, false)
    else
      var memBytes := if hi then contextHC else context64k;
      if !env.mem || !env.buf || !env.cbuf then
        // lz4_free_workspace: vfree of a NULL buffer does nothing
        NoWorkspace(Errno.NoMem, Obtained(env), Obtained(env), true)
      else Ready(memBytes, MaxWorkBuf, MaxWorkBuf)
  }
}
